=== FILE: README.md ===
# Panic-alert backend, modelled in Dafny

This project models the request handlers of a small Express/MongoDB
panic-alert backend. The backend has four parts:

- **Alert lifecycle.** A user raises an alert with a position. Raising again
  while the alert is active moves it. The alert is deactivated by the user or
  completed by id. Either way it is archived as a completed alert, and every
  successful change is broadcast. If the alert's owner no longer exists, a
  deactivated alert stays, inactive and unarchived, and nothing is broadcast.
- **Statistics.** A per-user record of button presses, plus one counter per
  action.
- **User directory.** Registration (the first user becomes admin), login and
  lookups.
- **Upload rules.** Which picture names are accepted, how a stored file is
  named, and the size cap.

The store is an immutable `Db` value with one sequence per collection in
insertion order. `findOne` is therefore the first match and `find` is the
matches in order. The store also holds the log of broadcast events and the
next document id.

Every handler is a pure function from the store and the request to
`(store, status, events)`. Time (`now`), the password hash, the password
comparison and the caller identity from the bearer token are parameters.

Files:

- `base.dfy`: optional values, status codes, the query answer, and
  first-match, filter and remove helpers with their lemmas.
- `calendar.dfy`: what `new Date(y, m, d)` computes, and the
  `{day, month, year}` → `[start, end]` date window. The routes copy this
  window code four times; it is modelled once here.
- `models.dfy`: the five schemas, the comment default, the save hook and the store.
- `alert_routes.dfy`, `stats_routes.dfy`, `auth_routes.dfy`, `upload.dfy`: one
  file per source file.
- `server.dfy`: the requests that write to the store, run one after another,
  and the store invariant they all keep.

Behaviour worth noting:

- The completed-alert `comment` is never set from a request. It is always
  "Sin comentario".
- `alertDeactivated` carries `{alerta: <alert>}` on both the deactivate path
  and the complete path.
- Deactivating or completing an alert whose owner is gone answers 500,
  because the handler reads a field of a missing user.
- `GET /` and `GET /:userId` return alerts whatever their `isActive`. In a
  store reached through the handlers every stored alert is active anyway:
  `Server.ListedAlertsAreActive` states this.
- The date window's end is midnight at the START of the last day, so the rest
  of that day falls outside. `Calendar.WindowEndIsLastDayMidnight` states this.

## Model

| member | source | states |
|---|---|---|
| `Calendar.DateWindow` | routes/alertRoutes.js:46-56 | A window is built exactly when at least one of day, month or year is given |
| `Calendar.NoParamsNoFilter` | routes/alertRoutes.js:45-46 | With no date parameter every instant passes the filter |
| `Calendar.NormalizeDayNumber` | routes/alertRoutes.js:47-51 | Normalising an out-of-range day (day 0, day 32, negative days) moves between months without changing the day denoted |
| `Calendar.JsDateDay` | routes/alertRoutes.js:47-51 | `new Date(y, m, d)` lands on ECMAScript's MakeDay of the full year, month and day |
| `Calendar.DayZeroIsLastDayOfPreviousMonth` | routes/alertRoutes.js:55 | Day 0 of month m is the last day of month m-1, so `getDate()` of it is that month's length |
| `Calendar.WindowStartDay` | routes/alertRoutes.js:47-51 | The start is day `day`, or else 1, of month `month - 1`, or else January, of `year`, or else 1970 |
| `Calendar.WindowEndArgs` | routes/alertRoutes.js:52-56 | The end is day `day`, or else the month's last day, of month `month - 1`, or else December, of `year`, or else 9999 |
| `Calendar.LastDayIsEndMonthLength` | routes/alertRoutes.js:55 | The fallback end day is the length of the end month, February 29 in leap years included |
| `Calendar.WindowOrdered` | routes/alertRoutes.js:47-57 | The start of every window is not after its end, in days and in instants |
| `Calendar.WindowEndIsLastDayMidnight` | routes/alertRoutes.js:52-57 | Without a day, the end is the month's last day at midnight, and the instant after that midnight is outside the window |
| `Calendar.FullDateIsOneInstant` | routes/alertRoutes.js:47-57 | With all three parameters, start equals end and only that day's midnight passes |
| `Calendar.MonthWindowExample` | routes/alertRoutes.js:47-56 | month=3, year=2024 spans 2024-03-01 to 2024-03-31 |
| `Calendar.LeapFebruaryExample` | routes/alertRoutes.js:52-56 | month=2, year=2024 ends on February 29 |
| `Calendar.TwoDigitYearExample` | routes/alertRoutes.js:47-56 | year=24 is read as 1924, as the Date constructor does |
| `Models.PreSave` | models/User.js:16-22 | The save hook replaces only the password, with its hash, and only when it was modified; otherwise the user is kept as stored |
| `AlertRoutes.FindActive` | routes/alertRoutes.js:122 | `findOne({userId, isActive: true})` finds an active alert of the user, or reports that the user has none |
| `AlertRoutes.RaiseSnapshot` | routes/alertRoutes.js:114-120 | The raise snapshot never holds an empty field: each falsy field becomes its Spanish placeholder, each truthy one is kept, and dni and foto are absent |
| `AlertRoutes.CopySnapshot` | routes/alertRoutes.js:163-169 | The deactivate and complete snapshots copy the five fields as they are, without dni or foto |
| `AlertRoutes.SnapshotsAgreeIffFieldsTruthy` | routes/alertRoutes.js:114-120 | The two snapshot rules agree exactly when all five user fields are truthy |
| `AlertRoutes.MoveAlertToHistory` | routes/alertRoutes.js:10-21 | Archival appends exactly one completed record with the alert's user, position, the given snapshot, the default comment and completion time now; it only removes alerts and touches no other collection |
| `AlertRoutes.ArchivalRemovesExactlyThatAlert` | routes/alertRoutes.js:19-20 | With unique ids, archival deletes that alert and keeps every other one, in order |
| `AlertRoutes.Raise` | routes/alertRoutes.js:101-142 | Events are appended to the log only on success; error answers leave the store as it was; users, archive and statistics are never touched |
| `AlertRoutes.RaiseRejects` | routes/alertRoutes.js:105-112 | A missing userId or non-number lat/lng gives 400 and an unknown user 404, with no change and no event |
| `AlertRoutes.RaiseUpdatesExisting` | routes/alertRoutes.js:122-131 | A user's active alert gets only new lat/lng (same id, stored snapshot and creation time), no alert is added, and one alertUpdate with the fresh snapshot goes out with a 200 |
| `AlertRoutes.RaiseCreates` | routes/alertRoutes.js:133-137 | Without an active alert, exactly one active alert with the next id, the position and the defaulted snapshot is appended, and one newAlert goes out with a 201 |
| `AlertRoutes.RaiseKeepsOneActive` | routes/alertRoutes.js:122-137 | Under sequential calls, no user ever has two active alerts |
| `AlertRoutes.RaiseTwiceSameAlerts` | routes/alertRoutes.js:122-131 | Raising twice with the same position leaves the alerts as one raise leaves them, and the second answer is an update |
| `AlertRoutes.Deactivate` | routes/alertRoutes.js:145-178 | Events only on success and none on errors; a 400 or 404 changes nothing; users, statistics, counters and the id counter are never touched, on every path |
| `AlertRoutes.DeactivateRejects` | routes/alertRoutes.js:149-160 | A missing userId gives 400 and no active alert gives 404, with nothing changed |
| `AlertRoutes.DeactivateArchives` | routes/alertRoutes.js:153-173 | The user's active alert is removed, archived with the copied snapshot, and alertDeactivated carries it as it was before the flip, with a 200 |
| `AlertRoutes.DeactivateVanishedOwner` | routes/alertRoutes.js:153-169 | If the owner is gone, the flip to inactive stays and nothing is archived; the answer is 500 and nothing is broadcast |
| `AlertRoutes.Complete` | routes/alertRoutes.js:181-206 | Error answers change nothing and emit nothing; only the alerts and archive collections ever change |
| `AlertRoutes.CompleteVanishedOwner` | routes/alertRoutes.js:190-197 | Completing an alert whose owner is gone answers 500 and leaves the store and the log unchanged |
| `AlertRoutes.CompleteUnknown` | routes/alertRoutes.js:185-188 | An unknown or missing alert id gives 404 with no change |
| `AlertRoutes.CompleteArchives` | routes/alertRoutes.js:190-201 | The alert is removed and archived with the copied snapshot, and alertDeactivated carries the alert in the same shape as on the deactivate path |
| `AlertRoutes.ListAlerts` | routes/alertRoutes.js:30-38 | Every alert document is returned with a 200, whatever its isActive |
| `AlertRoutes.ListCompleted` | routes/alertRoutes.js:41-66 | Returns exactly the completed alerts whose completedAt is in the window, each as many times as it is stored, and all of them when no parameter is given |
| `AlertRoutes.ListUserAlerts` | routes/alertRoutes.js:69-98 | Returns exactly the user's alerts created in the window, each as many times as it is stored; the answer is 404 exactly when there are none |
| `StatsRoutes.FindCounter` | routes/statsRoutes.js:27 | `findOne({action})` finds that action's counter or reports there is none |
| `StatsRoutes.RecordStatistic` | routes/statsRoutes.js:9-53 | Never broadcasts; error answers change nothing; only the statistics and counters change |
| `StatsRoutes.RecordRejects` | middleware/verifyToken.js:6-16 | A missing or invalid token gives 401 before the handler runs, and a falsy action 400 (routes/statsRoutes.js, lines 13-15), with nothing written |
| `StatsRoutes.RecordStoresOne` | routes/statsRoutes.js:18-24 | Exactly one statistic is appended, owned by the token's user, with the given timestamp or else the save time; the answer is 201 |
| `StatsRoutes.RecordBumpsCounter` | routes/statsRoutes.js:27-41 | The action's counter rises by exactly one, whether it existed or was created with 1, and no other action's counter changes |
| `StatsRoutes.RecordKeepsCountersConsistent` | routes/statsRoutes.js:18-41 | Recording keeps one counter per action, each equal to its action's number of records |
| `StatsRoutes.ConsistentCounterIsCount` | routes/statsRoutes.js:27-41 | In a consistent store, every action's counter value equals its number of statistics |
| `StatsRoutes.CountersMatchRecords` | routes/statsRoutes.js:18-41 | From empty stores, after any sequence of records, each action's counter equals the number of statistics with that action |
| `StatsRoutes.MyStatistics` | routes/statsRoutes.js:84-109 | Only the caller's statistics in the window are returned, each as many times as it is stored; an empty answer is a 200, and no token is a 401 |
| `StatsRoutes.RepeatedRecordsBothListed` | routes/statsRoutes.js:84-109 | Two identical stored records of the caller both come back: equal documents are not collapsed |
| `StatsRoutes.GeneralStatistics` | routes/statsRoutes.js:56-81 | Without parameters every counter is returned; with parameters the answer depends on how the query layer treats the unknown `timestamp` path |
| `AuthRoutes.Register` | routes/authRoutes.js:11-52 | Answers 201, 400 or 500; only a 201 changes the store, adding one user and sending back a role |
| `AuthRoutes.RegisterRejects` | routes/authRoutes.js:19-27 | A falsy text field or an e-mail already registered gives 400 with the directory unchanged; the picture is not checked |
| `AuthRoutes.RegisterWithoutPhotoFails` | routes/authRoutes.js:16-50 | With no uploaded picture the route's check passes, but the schema rejects the save: 500, nothing stored |
| `AuthRoutes.RegisterCreates` | routes/authRoutes.js:30-48 | The new user carries the form's fields, the picture path, the hashed password and a fresh id; the role is admin exactly when the directory was empty |
| `AuthRoutes.RegisterKeepsDirectoryWellFormed` | models/User.js:7-13 | E-mails and DNIs stay unique, and exactly the first user is admin |
| `AuthRoutes.Login` | routes/authRoutes.js:55-78 | Every refusal is a 400; a login always belongs to the user owning the e-mail, whose password matched, with that user's id and role |
| `AuthRoutes.LoginIncomplete` | routes/authRoutes.js:59-61 | A missing e-mail or password is refused with its own message |
| `AuthRoutes.LoginUnknownEqualsWrongPassword` | routes/authRoutes.js:63-71 | An unknown e-mail and a wrong password give the identical 400 "Credenciales inválidas." |
| `AuthRoutes.LoginSucceeds` | routes/authRoutes.js:68-74 | A matching password logs the owner of the e-mail in with the stored role |
| `AuthRoutes.LatestUser` | routes/authRoutes.js:81-92 | Answers only 200 or 404: 404 exactly on an empty directory, and otherwise a 200 with a user of the greatest createdAt |
| `AuthRoutes.OldestUser` | routes/authRoutes.js:95-106 | Answers only 200 or 404: 404 exactly on an empty directory, and otherwise a 200 with a user of the least createdAt |
| `AuthRoutes.NewestAndOldestOfOne` | routes/authRoutes.js:81-106 | On a directory of one user, latest and oldest both return that user |
| `AuthRoutes.UserById` | routes/authRoutes.js:109-121 | Answers only 200 or 404: 404 exactly when no user has the id, and otherwise a 200 with the user that has it |
| `AuthRoutes.PublicViewHidesOnlyPassword` | routes/authRoutes.js:126 | The listed view drops the password and nothing else |
| `AuthRoutes.ListUsers` | routes/authRoutes.js:124-135 | Every user, in order, without the password; 404 exactly on an empty directory |
| `Upload.FileFilterCharacterisation` | middleware/upload.js:21-28 | A name is accepted exactly when its last component has a non-leading last '.' and the text from it, lower-cased, is .jpg, .jpeg or .png |
| `Upload.FileFilterIgnoresCase` | middleware/upload.js:22 | Lower-casing the name never changes whether it is accepted |
| `Upload.UpperCaseNameAccepted` | middleware/upload.js:22-24 | "FOTO.PNG" is accepted |
| `Upload.DoubleExtensionRejected` | middleware/upload.js:22-27 | "a.png.exe" is refused: only the last extension counts |
| `Upload.DotFileRejected` | middleware/upload.js:22-27 | ".png" is refused: a leading dot is no extension |
| `Upload.Sanitize` | middleware/upload.js:16 | Each `\s` character becomes '_' and every other character is kept, one for one |
| `Upload.SanitizeFixesExactlyWhitespaceFree` | middleware/upload.js:16 | Sanitising changes a name exactly when it has whitespace, and is idempotent |
| `Upload.StoredNameShape` | middleware/upload.js:16 | The stored name has no whitespace, and its length is the timestamp's digits + 1 + the original's length |
| `Upload.DecimalRoundTrip` | middleware/upload.js:16 | The decimal text of the timestamp reads back as the timestamp |
| `Upload.StoredNameRoundTrip` | middleware/upload.js:15-18 | The stored name determines the upload time and the sanitised original name |
| `Upload.SizeCapIsTwoMebibytes` | middleware/upload.js:30-32 | The cap is 2·1024·1024 = 2,097,152 bytes, taken as the maximum size a file may have |
| `Server.ApplyKeepsInv` | server.js:29-31 | Every request keeps the store invariant: unique ids, at most one active alert per user, every stored alert active, unique e-mails and DNIs, only the first user admin, every alert owned, counters equal to record counts |
| `Server.RunKeepsInv` | server.js:29-31 | Any sequence of requests from a store satisfying the invariant keeps it, counters included |
| `Server.ReachableStoresKeepInv` | server.js:29-31 | Every store reachable from empty satisfies the invariant |
| `Server.ListedAlertsAreActive` | routes/alertRoutes.js:29-38 | In every store reached through the handlers, `GET /` returns exactly the active alerts, as its comment promises, and `GET /:userId` returns only active ones |
| `Server.NoServerErrorUnderInv` | routes/alertRoutes.js:162-169 | In such a store the owner of an alert is always found, so deactivate and complete never answer 500 |

## Left out

- Timestamps `updatedAt`: no handler reads them.
- Date parameters that are not integer numerals (`NaN`, fractions), and dates outside the ECMAScript time range (Invalid Date). Present parameters are integers, and a present parameter is truthy even when it reads "0".
- Time zones and daylight saving: instants are milliseconds on a local clock with days of exactly 86,400,000 ms.
- JWT signing, verification and expiry: the caller is a parameter, None for a missing or invalid token. bcrypt is the `hash` and `matches` parameters.
- multer's disk storage, `fs.mkdirSync`, `Date.now()`: the upload time is a parameter.
- A rejected or oversized upload makes `/register` answer 500 through the error middleware (server.js:34-37); `AuthRoutes.Register` does not model that path.
- Upload.SizeAccepted: a file of exactly 2,097,152 bytes is taken as accepted, since multer documents `fileSize` as a maximum; how the underlying parser treats that exact boundary is not part of this model.
- ObjectId cast errors on malformed ids, and Mongoose type casts of body fields. Ids are naturals, and a lat/lng that is not a number is None.
- Server errors from the database itself (the catch blocks) are not modelled. The 500s that follow from the code's own logic are modelled: a vanished owner, a missing picture, a repeated DNI.
- Concurrency between requests: handlers run one at a time. A race between two raises, or two "first" registrations, is outside the model.
- The `/test` route, Socket.IO connection handling, CORS and static files: transport plumbing. Broadcasts are entries appended to the event log.
- Log output (`console.log`).
- StatsRoutes.GeneralStatistics: with date parameters the filter names a field counters lack. Whether Mongoose drops it (all counters) or applies it (none) depends on its `strictQuery` setting, which is not visible, so the setting is a parameter.
- Upload.Lower: only ASCII letters are lower-cased. No other character lower-cases into '.', 'j', 'p', 'e', 'g' or 'n', so the filter's verdict is exactly JavaScript's.
- Upload.Decimal: only non-negative timestamps, which is what `Date.now()` gives.
- AuthRoutes.LatestUser: among users with equal `createdAt` the first stored is returned; the database leaves that choice open.
- The counter default `count: 0` is never used, because the route always creates a counter with count 1.
- The save hook's unmodified-password branch is not reached by any route, since nothing re-saves a user.
- AlertRoutes.ListCompleted, AlertRoutes.ListUserAlerts, StatsRoutes.MyStatistics: their contracts fix which documents come back and how many times each; the stored order of the answer follows from `Base.Filter` and `Base.FilterAppend`, not from an ensures of the listing itself.
- Positions (`lat`, `lng`) are opaque integers standing for JavaScript numbers, which are usually fractional. The handlers only copy them, so no answer depends on their values.
- Alerts are kept in a sequence, not a map keyed by id. Unique ids are part of the proved invariant instead.

=== FILE: alert_routes.dfy ===
/**
  The alert router: raising an alert (find-or-create per user), deactivating
  a user's active alert, completing an alert by id, the archival step both
  of those share, and the read queries.
 */
module AlertRoutes {
  import opened Base
  import opened Calendar
  import opened Models

  /**
    The POST body. `userId` is None when missing or empty (falsy); `lat`
    and `lng` are None when they are not of type number.
   */
  datatype AlertBody = AlertBody(userId: Option<Id>, lat: Option<Coord>, lng: Option<Coord>)

  predicate WellFormedBody(b: AlertBody) {
    b.userId.Some? && b.lat.Some? && b.lng.Some?
  }

  predicate IsActiveOf(a: Alert, userId: Id) {
    a.userId == userId && a.isActive
  }

  /** `Alert.findOne({userId, isActive: true})`. */
  function FindActive(alerts: seq<Alert>, userId: Id): (r: Option<nat>)
    ensures r.Some? ==> r.value < |alerts| && IsActiveOf(alerts[r.value], userId)
    ensures r.None? ==> forall j :: 0 <= j < |alerts| ==> !IsActiveOf(alerts[j], userId)
  {
    FindIndex(alerts, (a: Alert) => IsActiveOf(a, userId))
  }

  /** `Alert.findById(id)`. */
  function FindAlert(alerts: seq<Alert>, id: Id): (r: Option<nat>)
    ensures r.Some? ==> r.value < |alerts| && alerts[r.value].id == id
    ensures r.Some? ==> forall j :: 0 <= j < r.value ==> alerts[j].id != id
    ensures r.None? ==> forall j :: 0 <= j < |alerts| ==> alerts[j].id != id
  {
    FindIndex(alerts, (a: Alert) => a.id == id)
  }

  /** The invariant the find-or-create maintains: no user has two active alerts. */
  predicate AtMostOneActive(alerts: seq<Alert>) {
    forall i, j :: 0 <= i < j < |alerts| && alerts[i].isActive && alerts[j].isActive ==> alerts[i].userId != alerts[j].userId
  }

  /** JavaScript's `value || placeholder` on a string. */
  function OrPlaceholder(value: string, placeholder: string): string {
    if value == "" then placeholder else value
  }

  /**
    The snapshot the raise path embeds: the five contact fields, each falsy
    one replaced by its Spanish placeholder; `dni` and `foto` are not taken.
   */
  function RaiseSnapshot(u: User): (info: UserInfo)
    ensures info.dni.None? && info.foto.None?
    ensures info.nombre.Some? && info.apellido.Some? && info.correo.Some? && info.direccion.Some? && info.telefono.Some?
    ensures info.nombre.value != "" && info.apellido.value != "" && info.correo.value != "" && info.direccion.value != "" && info.telefono.value != ""
    ensures u.nombre != "" ==> info.nombre.value == u.nombre
    ensures u.apellido != "" ==> info.apellido.value == u.apellido
    ensures u.correo != "" ==> info.correo.value == u.correo
    ensures u.direccion != "" ==> info.direccion.value == u.direccion
    ensures u.telefono != "" ==> info.telefono.value == u.telefono
    ensures u.nombre == "" ==> info.nombre.value == "Sin nombre"
    ensures u.apellido == "" ==> info.apellido.value == "Sin apellido"
    ensures u.correo == "" ==> info.correo.value == "Sin correo"
    ensures u.direccion == "" ==> info.direccion.value == "Sin dirección"
    ensures u.telefono == "" ==> info.telefono.value == "Sin teléfono"
  {
    UserInfo(
      nombre := Some(OrPlaceholder(u.nombre, "Sin nombre")),
      apellido := Some(OrPlaceholder(u.apellido, "Sin apellido")),
      dni := None,
      correo := Some(OrPlaceholder(u.correo, "Sin correo")),
      telefono := Some(OrPlaceholder(u.telefono, "Sin teléfono")),
      direccion := Some(OrPlaceholder(u.direccion, "Sin dirección")),
      foto := None)
  }

  /** The snapshot the deactivate and complete paths take: the five contact fields copied as they are. */
  function CopySnapshot(u: User): (info: UserInfo)
    ensures info.dni.None? && info.foto.None?
    ensures info.nombre == Some(u.nombre) && info.apellido == Some(u.apellido) && info.correo == Some(u.correo)
    ensures info.direccion == Some(u.direccion) && info.telefono == Some(u.telefono)
  {
    UserInfo(
      nombre := Some(u.nombre),
      apellido := Some(u.apellido),
      dni := None,
      correo := Some(u.correo),
      telefono := Some(u.telefono),
      direccion := Some(u.direccion),
      foto := None)
  }

  /** The two snapshot rules differ only on falsy fields. */
  lemma SnapshotsAgreeIffFieldsTruthy(u: User)
    ensures RaiseSnapshot(u) == CopySnapshot(u)
        <==> u.nombre != "" && u.apellido != "" && u.correo != "" && u.direccion != "" && u.telefono != ""
  {
    if RaiseSnapshot(u) == CopySnapshot(u) {
      assert RaiseSnapshot(u).nombre == CopySnapshot(u).nombre;
      assert RaiseSnapshot(u).apellido == CopySnapshot(u).apellido;
      assert RaiseSnapshot(u).correo == CopySnapshot(u).correo;
      assert RaiseSnapshot(u).direccion == CopySnapshot(u).direccion;
      assert RaiseSnapshot(u).telefono == CopySnapshot(u).telefono;
    }
  }

  /** The archived record `moveAlertToHistory` saves for `alert`. */
  function ArchiveRecord(alert: Alert, info: UserInfo, now: int): CompletedAlert {
    CompletedAlert(alert.userId, alert.lat, alert.lng, ToArchived(info), now, DefaultComment)
  }

  /**
    `moveAlertToHistory`: save one completed record built from the alert's
    owner, position and the given snapshot (comment left to its default,
    completion time now), then delete the alert with the alert's id.
   */
  function MoveAlertToHistory(db: Db, alert: Alert, info: UserInfo, now: int): (r: Db)
    ensures |r.completed| == |db.completed| + 1 && r.completed[..|db.completed|] == db.completed
    ensures var c := r.completed[|db.completed|];
      c.userId == alert.userId && c.lat == alert.lat && c.lng == alert.lng
      && c.userInfo == ToArchived(info) && c.completedAt == now && c.comment == DefaultComment
    ensures forall a :: a in r.alerts ==> a in db.alerts
    ensures r.(alerts := db.alerts, completed := db.completed) == db
  {
    var remaining := match FindAlert(db.alerts, alert.id)
      case Some(j) => RemoveAt(db.alerts, j)
      case None => db.alerts;
    assert forall a :: a in remaining ==> a in db.alerts by {
      if FindAlert(db.alerts, alert.id).Some? {
        var j := FindAlert(db.alerts, alert.id).value;
        forall a | a in remaining ensures a in db.alerts {
          var k :| 0 <= k < |remaining| && remaining[k] == a;
          if k < j { assert a == db.alerts[k]; } else { assert a == db.alerts[k + 1]; }
        }
      }
    }
    db.(completed := db.completed + [ArchiveRecord(alert, info, now)], alerts := remaining)
  }

  /** With unique ids, archival deletes exactly the archived alert and keeps every other one, in order. */
  lemma ArchivalRemovesExactlyThatAlert(db: Db, i: nat, info: UserInfo, now: int)
    requires i < |db.alerts| && AlertIdsFresh(db.alerts, db.nextId)
    ensures MoveAlertToHistory(db, db.alerts[i], info, now).alerts == RemoveAt(db.alerts, i)
    ensures forall a :: a in MoveAlertToHistory(db, db.alerts[i], info, now).alerts ==> a.id != db.alerts[i].id
  {
    var r := MoveAlertToHistory(db, db.alerts[i], info, now);
    var found := FindAlert(db.alerts, db.alerts[i].id);
    assert found == Some(i);
    forall a | a in r.alerts ensures a.id != db.alerts[i].id {
      var k :| 0 <= k < |r.alerts| && r.alerts[k] == a;
      if k < i { assert a == db.alerts[k]; } else { assert a == db.alerts[k + 1]; }
    }
  }

  /** POST `/`: register or update the caller's alert. */
  function Raise(db: Db, body: AlertBody, now: int): (r: Response)
    ensures r.db.events == db.events + r.emitted
    ensures IsError(r.status) ==> r.db == db && r.emitted == []
    ensures r.db.users == db.users && r.db.completed == db.completed
    ensures r.db.statistics == db.statistics && r.db.counters == db.counters
  {
    if !WellFormedBody(body) then Reply(db, BadRequest, [])
    else
      var userId := body.userId.value;
      match FindUser(db.users, userId)
      case None => Reply(db, NotFound, [])
      case Some(user) =>
        var info := RaiseSnapshot(user);
        match FindActive(db.alerts, userId)
        case Some(i) =>
          var updated := db.alerts[i].(lat := body.lat.value, lng := body.lng.value);
          Reply(db.(alerts := db.alerts[i := updated]), Ok, [AlertUpdate(updated.(userInfo := info))])
        case None =>
          var created := Alert(db.nextId, userId, body.lat.value, body.lng.value, true, info, now);
          Reply(db.(alerts := db.alerts + [created], nextId := db.nextId + 1), Created, [NewAlert(created.(userInfo := info))])
  }

  /** A missing user id or a non-number coordinate is a 400; an unknown user a 404; neither writes or broadcasts. */
  lemma RaiseRejects(db: Db, body: AlertBody, now: int)
    requires !WellFormedBody(body) || FindUser(db.users, body.userId.value).None?
    ensures Raise(db, body, now) == Response(db, if WellFormedBody(body) then NotFound else BadRequest, [])
  {
    assert db.events + [] == db.events;
  }

  /**
    A user who already has an active alert (the only one, by the invariant)
    gets that alert moved: only its coordinates change, nothing is created,
    and one `alertUpdate` carrying the fresh snapshot goes out with a 200.
   */
  lemma RaiseUpdatesExisting(db: Db, body: AlertBody, now: int, i: nat)
    requires WellFormedBody(body) && FindUser(db.users, body.userId.value).Some?
    requires i < |db.alerts| && IsActiveOf(db.alerts[i], body.userId.value) && AtMostOneActive(db.alerts)
    ensures var r := Raise(db, body, now);
      && r.status == Ok
      && |r.db.alerts| == |db.alerts| && r.db.nextId == db.nextId
      && (forall j :: 0 <= j < |db.alerts| && j != i ==> r.db.alerts[j] == db.alerts[j])
      && r.db.alerts[i].lat == body.lat.value && r.db.alerts[i].lng == body.lng.value
      && r.db.alerts[i] == db.alerts[i].(lat := r.db.alerts[i].lat, lng := r.db.alerts[i].lng)
      && r.emitted == [AlertUpdate(r.db.alerts[i].(userInfo := RaiseSnapshot(FindUser(db.users, body.userId.value).value)))]
  {
    assert FindActive(db.alerts, body.userId.value) == Some(i);
  }

  /**
    A user with no active alert gets exactly one new alert, active, carrying
    the defaulted snapshot and the next id; one `newAlert` goes out with a 201.
   */
  lemma RaiseCreates(db: Db, body: AlertBody, now: int)
    requires WellFormedBody(body) && FindUser(db.users, body.userId.value).Some?
    requires forall j :: 0 <= j < |db.alerts| ==> !IsActiveOf(db.alerts[j], body.userId.value)
    ensures var r := Raise(db, body, now);
      var a := r.db.alerts[|db.alerts|];
      && r.status == Created
      && |r.db.alerts| == |db.alerts| + 1 && r.db.alerts[..|db.alerts|] == db.alerts
      && a.id == db.nextId && a.userId == body.userId.value && a.isActive
      && a.lat == body.lat.value && a.lng == body.lng.value && a.createdAt == now
      && a.userInfo == RaiseSnapshot(FindUser(db.users, body.userId.value).value)
      && r.emitted == [NewAlert(a)]
  {
    assert FindActive(db.alerts, body.userId.value).None?;
  }

  /** Under sequential calls the find-or-create keeps at most one active alert per user. */
  lemma RaiseKeepsOneActive(db: Db, body: AlertBody, now: int)
    requires AtMostOneActive(db.alerts)
    ensures AtMostOneActive(Raise(db, body, now).db.alerts)
  {
    var r := Raise(db, body, now);
    if WellFormedBody(body) && FindUser(db.users, body.userId.value).Some? {
      var userId := body.userId.value;
      match FindActive(db.alerts, userId)
      case Some(i) =>
        assert forall j :: 0 <= j < |db.alerts| ==> r.db.alerts[j].userId == db.alerts[j].userId && r.db.alerts[j].isActive == db.alerts[j].isActive;
      case None =>
        assert r.db.alerts == db.alerts + [r.db.alerts[|db.alerts|]];
    }
  }

  /** Raising twice with the same coordinates leaves the alerts as the first raise left them. */
  lemma RaiseTwiceSameAlerts(db: Db, body: AlertBody, t1: int, t2: int)
    requires WellFormedBody(body) && FindUser(db.users, body.userId.value).Some?
    ensures Raise(Raise(db, body, t1).db, body, t2).db.alerts == Raise(db, body, t1).db.alerts
    ensures Raise(Raise(db, body, t1).db, body, t2).status == Ok
  {
    var userId := body.userId.value;
    var r1 := Raise(db, body, t1);
    assert r1.db.users == db.users;
    match FindActive(db.alerts, userId)
    case Some(i) =>
      var found := FindActive(r1.db.alerts, userId);
      assert found == Some(i) by {
        assert forall j :: 0 <= j < |db.alerts| ==> (IsActiveOf(r1.db.alerts[j], userId) <==> IsActiveOf(db.alerts[j], userId));
        FindIndexAgrees(db.alerts, r1.db.alerts, (a: Alert) => IsActiveOf(a, userId));
      }
    case None =>
      var n := |db.alerts|;
      assert IsActiveOf(r1.db.alerts[n], userId);
      var found := FindActive(r1.db.alerts, userId);
      assert found == Some(n) by {
        assert forall j :: 0 <= j < n ==> r1.db.alerts[j] == db.alerts[j];
      }
  }

  /** DELETE `/`: deactivate the user's active alert and archive it. */
  function Deactivate(db: Db, userId: Option<Id>, now: int): (r: Response)
    ensures r.db.events == db.events + r.emitted
    ensures IsError(r.status) ==> r.emitted == []
    ensures r.status == BadRequest || r.status == NotFound ==> r.db == db
    ensures r.db.(alerts := db.alerts, completed := db.completed, events := db.events) == db
  {
    if userId.None? then Reply(db, BadRequest, [])
    else match FindActive(db.alerts, userId.value)
      case None => Reply(db, NotFound, [])
      case Some(i) =>
        // findOneAndUpdate returns the document as it was before the update
        var alert := db.alerts[i];
        var flipped := db.(alerts := db.alerts[i := alert.(isActive := false)]);
        match FindUser(db.users, alert.userId)
        case None => Reply(flipped, ServerError, [])
        case Some(user) => Reply(MoveAlertToHistory(flipped, alert, CopySnapshot(user), now), Ok, [AlertDeactivated(alert)])
  }

  /** A missing user id is a 400 and a user with no active alert a 404; neither changes anything. */
  lemma DeactivateRejects(db: Db, userId: Option<Id>, now: int)
    requires userId.None? || FindActive(db.alerts, userId.value).None?
    ensures Deactivate(db, userId, now) == Response(db, if userId.None? then BadRequest else NotFound, [])
  {
    assert db.events + [] == db.events;
  }

  /**
    Deactivating archives the user's active alert: one completed record with
    the copied snapshot, the alert gone from the active collection, and one
    `alertDeactivated` carrying the alert as it was before the flip.
   */
  lemma DeactivateArchives(db: Db, userId: Id, now: int, i: nat)
    requires AlertIdsFresh(db.alerts, db.nextId) && AtMostOneActive(db.alerts)
    requires i < |db.alerts| && IsActiveOf(db.alerts[i], userId)
    requires FindUser(db.users, userId).Some?
    ensures var r := Deactivate(db, Some(userId), now);
      && r.status == Ok
      && r.db.alerts == RemoveAt(db.alerts, i)
      && r.db.completed == db.completed + [ArchiveRecord(db.alerts[i], CopySnapshot(FindUser(db.users, userId).value), now)]
      && r.emitted == [AlertDeactivated(db.alerts[i])] && db.alerts[i].isActive
  {
    assert FindActive(db.alerts, userId) == Some(i);
    var flipped := db.(alerts := db.alerts[i := db.alerts[i].(isActive := false)]);
    assert AlertIdsFresh(flipped.alerts, flipped.nextId) by {
      assert forall j :: 0 <= j < |db.alerts| ==> flipped.alerts[j].id == db.alerts[j].id;
    }
    ArchivalRemovesExactlyThatAlert(flipped, i, CopySnapshot(FindUser(db.users, userId).value), now);
    assert flipped.alerts[i].id == db.alerts[i].id;
    var r := Deactivate(db, Some(userId), now);
    assert r.db.alerts == RemoveAt(flipped.alerts, i);
    assert RemoveAt(flipped.alerts, i) == RemoveAt(db.alerts, i);
    assert r.db.completed == db.completed + [ArchiveRecord(db.alerts[i], CopySnapshot(FindUser(db.users, userId).value), now)];
  }

  /**
    The flip to inactive is written before the owner is looked up: if the
    owner is gone the alert stays, inactive and unarchived, and the answer
    is a 500 with no broadcast.
   */
  lemma DeactivateVanishedOwner(db: Db, userId: Id, now: int)
    requires FindActive(db.alerts, userId).Some? && FindUser(db.users, userId).None?
    ensures var r := Deactivate(db, Some(userId), now);
      var i := FindActive(db.alerts, userId).value;
      && r.status == ServerError && r.emitted == []
      && r.db.alerts == db.alerts[i := db.alerts[i].(isActive := false)]
      && r.db.completed == db.completed
  {
  }

  /** POST `/complete`: archive the alert with the given id. */
  function Complete(db: Db, alertId: Option<Id>, now: int): (r: Response)
    ensures r.db.events == db.events + r.emitted
    ensures IsError(r.status) ==> r.db == db && r.emitted == []
    ensures r.db.(alerts := db.alerts, completed := db.completed, events := db.events) == db
  {
    // findById(undefined) matches nothing
    var found := if alertId.None? then None else FindAlert(db.alerts, alertId.value);
    match found
    case None => Reply(db, NotFound, [])
    case Some(i) =>
      var alert := db.alerts[i];
      match FindUser(db.users, alert.userId)
      case None => Reply(db, ServerError, [])
      case Some(user) => Reply(MoveAlertToHistory(db, alert, CopySnapshot(user), now), Ok, [AlertDeactivated(alert)])
  }

  /**
    Completing an alert whose owner is gone answers 500: the handler reads a
    field of the missing user before archiving, so nothing changes.
   */
  lemma CompleteVanishedOwner(db: Db, i: nat, now: int)
    requires AlertIdsFresh(db.alerts, db.nextId)
    requires i < |db.alerts| && FindUser(db.users, db.alerts[i].userId).None?
    ensures Complete(db, Some(db.alerts[i].id), now) == Response(db, ServerError, [])
  {
    assert FindAlert(db.alerts, db.alerts[i].id) == Some(i);
    assert db.events + [] == db.events;
  }

  /** An unknown or missing alert id is a 404 with no change. */
  lemma CompleteUnknown(db: Db, alertId: Option<Id>, now: int)
    requires alertId.None? || forall a :: a in db.alerts ==> a.id != alertId.value
    ensures Complete(db, alertId, now) == Response(db, NotFound, [])
  {
    assert db.events + [] == db.events;
  }

  /**
    Completing archives the alert: one completed record, the alert removed
    and no other, and one `alertDeactivated` of the same `{alerta}` shape as
    the deactivate path.
   */
  lemma CompleteArchives(db: Db, i: nat, now: int)
    requires AlertIdsFresh(db.alerts, db.nextId)
    requires i < |db.alerts| && FindUser(db.users, db.alerts[i].userId).Some?
    ensures var r := Complete(db, Some(db.alerts[i].id), now);
      && r.status == Ok
      && r.db.alerts == RemoveAt(db.alerts, i)
      && r.db.completed == db.completed + [ArchiveRecord(db.alerts[i], CopySnapshot(FindUser(db.users, db.alerts[i].userId).value), now)]
      && r.emitted == [AlertDeactivated(db.alerts[i])]
  {
    assert FindAlert(db.alerts, db.alerts[i].id) == Some(i);
    ArchivalRemovesExactlyThatAlert(db, i, CopySnapshot(FindUser(db.users, db.alerts[i].userId).value), now);
  }

  /** GET `/`: every alert document, whatever its `isActive`. */
  function ListAlerts(db: Db): (r: Listing<Alert>)
    ensures r.status == Ok && r.items == db.alerts
  {
    Listing(Ok, db.alerts)
  }

  /** GET `/completed`: completed alerts whose `completedAt` lies in the date window. */
  function ListCompleted(db: Db, q: DateQuery): (r: Listing<CompletedAlert>)
    ensures r.status == Ok
    ensures forall c :: c in r.items <==> c in db.completed && Admits(DateWindow(q), c.completedAt)
    ensures forall c :: multiset(r.items)[c] == if Admits(DateWindow(q), c.completedAt) then multiset(db.completed)[c] else 0
    ensures q.NoneGiven() ==> r.items == db.completed
  {
    var items := Filter(db.completed, (c: CompletedAlert) => Admits(DateWindow(q), c.completedAt));
    FilterCounts(db.completed, (c: CompletedAlert) => Admits(DateWindow(q), c.completedAt));
    assert q.NoneGiven() ==> items == db.completed by {
      if q.NoneGiven() { FilterAll(db.completed, (c: CompletedAlert) => Admits(DateWindow(q), c.completedAt)); }
    }
    Listing(Ok, items)
  }

  /** GET `/:userId`: the user's alerts (active or not) created in the window; none at all is a 404. */
  function ListUserAlerts(db: Db, userId: Id, q: DateQuery): (r: Listing<Alert>)
    ensures forall a :: a in r.items <==> a in db.alerts && a.userId == userId && Admits(DateWindow(q), a.createdAt)
    ensures forall a :: multiset(r.items)[a] == if a.userId == userId && Admits(DateWindow(q), a.createdAt) then multiset(db.alerts)[a] else 0
    ensures r.status == NotFound <==> forall a :: a in db.alerts ==> !(a.userId == userId && Admits(DateWindow(q), a.createdAt))
    ensures r.status == Ok || r.status == NotFound
  {
    var items := Filter(db.alerts, (a: Alert) => a.userId == userId && Admits(DateWindow(q), a.createdAt));
    FilterCounts(db.alerts, (a: Alert) => a.userId == userId && Admits(DateWindow(q), a.createdAt));
    assert |items| > 0 ==> items[0] in items;
    if |items| == 0 then Listing(NotFound, []) else Listing(Ok, items)
  }
}

=== FILE: auth_routes.dfy ===
/**
  The user directory: registration (required fields, unique e-mail, the
  first-user-is-admin rule, the schema's own checks on save), login
  outcomes, and the lookups.
 */
module AuthRoutes {
  import opened Base
  import opened Models

  /** The seven text fields of the registration form; "" stands for missing or empty. */
  datatype RegisterForm = RegisterForm(
    nombre: string,
    apellido: string,
    dni: string,
    correo: string,
    telefono: string,
    contrasena: string,
    direccion: string)

  predicate FormComplete(f: RegisterForm) {
    f.nombre != "" && f.apellido != "" && f.dni != "" && f.correo != ""
    && f.telefono != "" && f.contrasena != "" && f.direccion != ""
  }

  /** `User.findOne({correo})`. */
  function FindByCorreo(users: seq<User>, correo: string): (r: Option<nat>)
    ensures r.Some? ==> r.value < |users| && users[r.value].correo == correo
    ensures r.None? ==> forall j :: 0 <= j < |users| ==> users[j].correo != correo
  {
    FindIndex(users, (u: User) => u.correo == correo)
  }

  predicate DniTaken(users: seq<User>, dni: string) {
    exists j :: 0 <= j < |users| && users[j].dni == dni
  }

  /** The outcome of a registration: the store, the status, and the role sent back on success. */
  datatype Registration = Registration(db: Db, status: Status, rol: Option<Role>)

  /**
    POST `/register`. `foto` is the stored path of the uploaded picture,
    None when nothing was uploaded; `hash` stands for bcrypt with a fresh
    salt. The route does not require the picture, but the schema does, so
    a registration without one fails on save; so does a repeated `dni`,
    which the unique index refuses.
   */
  function Register(db: Db, form: RegisterForm, foto: Option<string>, now: int, hash: string -> string): (r: Registration)
    ensures r.db.(users := db.users, nextId := db.nextId) == db
    ensures r.status != Created ==> r.db == db && r.rol.None?
    ensures r.status == Created ==> r.rol.Some? && |r.db.users| == |db.users| + 1
    ensures r.status in {Created, BadRequest, ServerError}
  {
    if !FormComplete(form) then Registration(db, BadRequest, None)
    else if FindByCorreo(db.users, form.correo).Some? then Registration(db, BadRequest, None)
    else
      var rol := if |db.users| == 0 then Admin else Member;
      if foto.None? || foto.value == "" then Registration(db, ServerError, None)
      else if DniTaken(db.users, form.dni) then Registration(db, ServerError, None)
      else
        var user := User(db.nextId, form.nombre, form.apellido, form.dni, form.correo, form.telefono,
                         form.contrasena, form.direccion, foto.value, rol, now);
        Registration(db.(users := db.users + [PreSave(user, true, hash)], nextId := db.nextId + 1), Created, Some(rol))
  }

  /** A falsy field or an e-mail already registered is a 400 and the directory is unchanged; the picture is not checked here. */
  lemma RegisterRejects(db: Db, form: RegisterForm, foto: Option<string>, now: int, hash: string -> string)
    requires !FormComplete(form) || exists j :: 0 <= j < |db.users| && db.users[j].correo == form.correo
    ensures Register(db, form, foto, now, hash) == Registration(db, BadRequest, None)
  {
  }

  /** A complete form with a fresh e-mail but no uploaded picture passes the route's check and then fails the schema: 500, nothing saved. */
  lemma RegisterWithoutPhotoFails(db: Db, form: RegisterForm, now: int, hash: string -> string)
    requires FormComplete(form) && forall j :: 0 <= j < |db.users| ==> db.users[j].correo != form.correo
    ensures Register(db, form, None, now, hash) == Registration(db, ServerError, None)
  {
  }

  /**
    A successful registration appends one user carrying the form's fields,
    the picture path, the hashed password and a fresh id; its role is admin
    exactly when the directory was empty, and that role is what is sent back.
   */
  lemma RegisterCreates(db: Db, form: RegisterForm, foto: string, now: int, hash: string -> string)
    requires FormComplete(form) && foto != ""
    requires forall j :: 0 <= j < |db.users| ==> db.users[j].correo != form.correo && db.users[j].dni != form.dni
    ensures var r := Register(db, form, Some(foto), now, hash);
      var u := r.db.users[|db.users|];
      && r.status == Created
      && r.db.users[..|db.users|] == db.users
      && u.id == db.nextId && r.db.nextId == db.nextId + 1
      && u.nombre == form.nombre && u.apellido == form.apellido && u.dni == form.dni && u.correo == form.correo
      && u.telefono == form.telefono && u.direccion == form.direccion && u.foto == foto && u.createdAt == now
      && u.contrasena == hash(form.contrasena)
      && (u.rol == Admin <==> |db.users| == 0)
      && r.rol == Some(u.rol)
  {
    var r := Register(db, form, Some(foto), now, hash);
    assert r.db.users == db.users + [r.db.users[|db.users|]];
  }

  /** The directory invariant registration maintains: unique e-mails, unique DNIs, and exactly the first user is admin. */
  predicate DirectoryWellFormed(users: seq<User>) {
    && (forall i, j :: 0 <= i < j < |users| ==> users[i].correo != users[j].correo && users[i].dni != users[j].dni)
    && (forall i :: 0 <= i < |users| ==> (users[i].rol == Admin <==> i == 0))
  }

  lemma RegisterKeepsDirectoryWellFormed(db: Db, form: RegisterForm, foto: Option<string>, now: int, hash: string -> string)
    requires DirectoryWellFormed(db.users)
    ensures DirectoryWellFormed(Register(db, form, foto, now, hash).db.users)
  {
    var r := Register(db, form, foto, now, hash);
    if r.status == Created {
      var n := |db.users|;
      assert r.db.users == db.users + [r.db.users[n]];
      assert forall j :: 0 <= j < n ==> r.db.users[j] == db.users[j];
      assert !DniTaken(db.users, form.dni);
    }
  }

  /** What the signed token carries: the user's id and role. */
  datatype Session = Session(userId: Id, rol: Role)

  datatype LoginOutcome =
    | LoggedIn(session: Session)
    | Refused(status: Status, message: string)

  const IncompleteMessage: string := "Por favor, complete todos los campos."
  const BadCredentialsMessage: string := "Credenciales inválidas."

  /** The user at index `j` owns the e-mail, the password matches, and the session is theirs. */
  predicate UserLoggedIn(users: seq<User>, j: int, correo: string, contrasena: string, matches: (string, string) -> bool, s: Session) {
    0 <= j < |users| && users[j].correo == correo && matches(contrasena, users[j].contrasena)
    && s == Session(users[j].id, users[j].rol)
  }

  /**
    POST `/login`. `matches(plain, stored)` stands for bcrypt's comparison
    of the typed password with the stored hash.
   */
  function Login(db: Db, correo: string, contrasena: string, matches: (string, string) -> bool): (r: LoginOutcome)
    ensures r.Refused? ==> r.status == BadRequest
    ensures r.LoggedIn? ==> exists j :: UserLoggedIn(db.users, j, correo, contrasena, matches, r.session)
  {
    if correo == "" || contrasena == "" then Refused(BadRequest, IncompleteMessage)
    else match FindByCorreo(db.users, correo)
      case None => Refused(BadRequest, BadCredentialsMessage)
      case Some(i) =>
        var user := db.users[i];
        if !matches(contrasena, user.contrasena) then Refused(BadRequest, BadCredentialsMessage)
        else
          assert UserLoggedIn(db.users, i, correo, contrasena, matches, Session(user.id, user.rol));
          LoggedIn(Session(user.id, user.rol))
  }

  /** A missing field is refused with its own message. */
  lemma LoginIncomplete(db: Db, correo: string, contrasena: string, matches: (string, string) -> bool)
    requires correo == "" || contrasena == ""
    ensures Login(db, correo, contrasena, matches) == Refused(BadRequest, IncompleteMessage)
  {
  }

  /**
    An unknown e-mail and a wrong password are indistinguishable to the
    caller: both give the same 400 with the same message.
   */
  lemma LoginUnknownEqualsWrongPassword(db: Db, correo: string, contrasena: string, matches: (string, string) -> bool)
    requires correo != "" && contrasena != ""
    requires (forall j :: 0 <= j < |db.users| ==> db.users[j].correo != correo)
          || (DirectoryWellFormed(db.users) && exists j :: 0 <= j < |db.users| && db.users[j].correo == correo && !matches(contrasena, db.users[j].contrasena))
    ensures Login(db, correo, contrasena, matches) == Refused(BadRequest, BadCredentialsMessage)
  {
    var found := FindByCorreo(db.users, correo);
    if found.Some? {
      var j :| 0 <= j < |db.users| && db.users[j].correo == correo && !matches(contrasena, db.users[j].contrasena);
      assert found.value == j;
    }
  }

  /** In a well-formed directory a matching password logs the owner of the e-mail in with the stored role. */
  lemma LoginSucceeds(db: Db, j: nat, contrasena: string, matches: (string, string) -> bool)
    requires DirectoryWellFormed(db.users) && j < |db.users|
    requires db.users[j].correo != "" && contrasena != "" && matches(contrasena, db.users[j].contrasena)
    ensures Login(db, db.users[j].correo, contrasena, matches) == LoggedIn(Session(db.users[j].id, db.users[j].rol))
  {
    var found := FindByCorreo(db.users, db.users[j].correo);
    assert found.value == j;
  }

  /** A lookup answer: 200 with a user, or 404 without one. */
  datatype Lookup = Lookup(status: Status, user: Option<User>)

  /** A user with the greatest `createdAt` (the earliest stored among ties). */
  function Newest(users: seq<User>): (r: Option<User>)
    ensures r.None? <==> |users| == 0
    ensures r.Some? ==> r.value in users && forall u :: u in users ==> u.createdAt <= r.value.createdAt
  {
    if |users| == 0 then None
    else
      assert users == [users[0]] + users[1..];
      match Newest(users[1..])
      case None => Some(users[0])
      case Some(v) => if users[0].createdAt >= v.createdAt then Some(users[0]) else Some(v)
  }

  /** A user with the least `createdAt` (the earliest stored among ties). */
  function Oldest(users: seq<User>): (r: Option<User>)
    ensures r.None? <==> |users| == 0
    ensures r.Some? ==> r.value in users && forall u :: u in users ==> r.value.createdAt <= u.createdAt
  {
    if |users| == 0 then None
    else
      assert users == [users[0]] + users[1..];
      match Oldest(users[1..])
      case None => Some(users[0])
      case Some(v) => if users[0].createdAt <= v.createdAt then Some(users[0]) else Some(v)
  }

  /** GET `/latest`. */
  function LatestUser(db: Db): (r: Lookup)
    ensures r.status == Ok || r.status == NotFound
    ensures r.status == NotFound <==> |db.users| == 0
    ensures r.status == Ok <==> r.user.Some?
    ensures r.user.Some? ==> r.user.value in db.users && forall u :: u in db.users ==> u.createdAt <= r.user.value.createdAt
  {
    match Newest(db.users)
    case None => Lookup(NotFound, None)
    case Some(u) => Lookup(Ok, Some(u))
  }

  /** GET `/oldest`. */
  function OldestUser(db: Db): (r: Lookup)
    ensures r.status == Ok || r.status == NotFound
    ensures r.status == NotFound <==> |db.users| == 0
    ensures r.status == Ok <==> r.user.Some?
    ensures r.user.Some? ==> r.user.value in db.users && forall u :: u in db.users ==> r.user.value.createdAt <= u.createdAt
  {
    match Oldest(db.users)
    case None => Lookup(NotFound, None)
    case Some(u) => Lookup(Ok, Some(u))
  }

  /** On a directory of one user, the newest and the oldest are that user. */
  lemma NewestAndOldestOfOne(db: Db)
    requires |db.users| == 1
    ensures LatestUser(db) == OldestUser(db) == Lookup(Ok, Some(db.users[0]))
  {
    assert db.users[1..] == [];
  }

  /** GET `/user/:id`. */
  function UserById(db: Db, id: Id): (r: Lookup)
    ensures r.status == Ok || r.status == NotFound
    ensures r.status == NotFound <==> forall u :: u in db.users ==> u.id != id
    ensures r.status == Ok <==> r.user.Some?
    ensures r.user.Some? ==> r.user.value in db.users && r.user.value.id == id
  {
    match FindUser(db.users, id)
    case None => Lookup(NotFound, None)
    case Some(u) => Lookup(Ok, Some(u))
  }

  /** A user as `/users` sends it: every field but `contrasena`. */
  datatype PublicUser = PublicUser(
    id: Id,
    nombre: string,
    apellido: string,
    dni: string,
    correo: string,
    telefono: string,
    direccion: string,
    foto: string,
    rol: Role,
    createdAt: int)

  function ToPublic(u: User): PublicUser {
    PublicUser(u.id, u.nombre, u.apellido, u.dni, u.correo, u.telefono, u.direccion, u.foto, u.rol, u.createdAt)
  }

  /** The projection drops the password and nothing else: two users with equal views differ at most in it. */
  lemma PublicViewHidesOnlyPassword(u: User, v: User)
    ensures ToPublic(u) == ToPublic(v) <==> u.(contrasena := v.contrasena) == v
  {
    if ToPublic(u) == ToPublic(v) {
      assert ToPublic(u).id == ToPublic(v).id;
    }
  }

  datatype UserList = UserList(status: Status, users: seq<PublicUser>)

  /** GET `/users`: every user, in order, without the password; an empty directory is a 404. */
  function ListUsers(db: Db): (r: UserList)
    ensures r.status == NotFound <==> |db.users| == 0
    ensures r.status == Ok <==> |db.users| > 0
    ensures |r.users| == |db.users|
    ensures forall i :: 0 <= i < |r.users| ==> r.users[i].id == db.users[i].id && r.users[i].correo == db.users[i].correo
    ensures forall i :: 0 <= i < |r.users| ==> r.users[i] == ToPublic(db.users[i])
  {
    if |db.users| == 0 then UserList(NotFound, [])
    else UserList(Ok, seq(|db.users|, i requires 0 <= i < |db.users| => ToPublic(db.users[i])))
  }
}

=== FILE: base.dfy ===
/**
  Shared vocabulary of the handlers: an optional value and the HTTP status
  codes the routes answer with.
 */
module Base {

  /** A value that may be absent: a missing body field, a `findOne` that matched nothing. */
  datatype Option<+T> = None | Some(value: T) {

    /** The value, or `default` when absent: JavaScript's `x || default` on a field that is present-and-truthy or not. */
    function GetOr(default: T): T {
      match this
      case Some(v) => v
      case None => default
    }
  }

  type Status = int

  const Ok: Status := 200
  const Created: Status := 201
  const BadRequest: Status := 400
  const Unauthorized: Status := 401
  const NotFound: Status := 404
  const ServerError: Status := 500

  /** Statuses the handlers use to report a failure. */
  predicate IsError(s: Status) {
    s >= 400
  }

  /*
    A collection is a sequence in natural (insertion) order, which is the
    order an unsorted query returns: `findOne(filter)` is the first match,
    `find(filter)` the matches in order.
  */

  /** Index of the first element satisfying `p`, as `findOne` picks it. */
  function FindIndex<T>(s: seq<T>, p: T -> bool): (r: Option<nat>)
    ensures r.Some? ==> r.value < |s| && p(s[r.value])
    ensures r.Some? ==> forall j :: 0 <= j < r.value ==> !p(s[j])
    ensures r.None? ==> forall j :: 0 <= j < |s| ==> !p(s[j])
  {
    if |s| == 0 then None
    else if p(s[0]) then Some(0)
    else match FindIndex(s[1..], p)
      case None => None
      case Some(i) => Some(i + 1)
  }

  /** The elements satisfying `p`, in order, as `find` returns them. */
  function Filter<T(!new)>(s: seq<T>, p: T -> bool): (r: seq<T>)
    ensures |r| <= |s|
    ensures forall j :: 0 <= j < |r| ==> p(r[j])
    ensures forall x :: x in r <==> x in s && p(x)
  {
    if |s| == 0 then []
    else
      var rest := Filter(s[1..], p);
      assert s == [s[0]] + s[1..];
      if p(s[0]) then [s[0]] + rest else rest
  }

  /** Two sequences whose elements agree, place by place, on `p` have the same first match. */
  lemma {:induction false} FindIndexAgrees<T>(s: seq<T>, t: seq<T>, p: T -> bool)
    requires |s| == |t|
    requires forall j :: 0 <= j < |s| ==> p(s[j]) == p(t[j])
    ensures FindIndex(s, p) == FindIndex(t, p)
  {
    if |s| > 0 && !p(s[0]) {
      FindIndexAgrees(s[1..], t[1..], p);
    }
  }

  /** `find` returns each stored match as many times as it is stored, and nothing else. */
  lemma {:induction false} FilterCounts<T(!new)>(s: seq<T>, p: T -> bool)
    ensures forall x :: multiset(Filter(s, p))[x] == if p(x) then multiset(s)[x] else 0
  {
    if |s| > 0 {
      assert s == [s[0]] + s[1..];
      assert multiset(s) == multiset{s[0]} + multiset(s[1..]);
      FilterCounts(s[1..], p);
    }
  }

  /** A filter every element passes keeps the whole sequence. */
  lemma {:induction false} FilterAll<T(!new)>(s: seq<T>, p: T -> bool)
    requires forall x :: x in s ==> p(x)
    ensures Filter(s, p) == s
  {
    if |s| > 0 {
      assert s == [s[0]] + s[1..];
      FilterAll(s[1..], p);
    }
  }

  /** Filtering a sequence with one more element at the end. */
  lemma {:induction false} FilterAppend<T(!new)>(s: seq<T>, x: T, p: T -> bool)
    ensures Filter(s + [x], p) == Filter(s, p) + (if p(x) then [x] else [])
  {
    if |s| == 0 {
      assert s + [x] == [x];
      assert [x][1..] == [];
    } else {
      assert (s + [x])[1..] == s[1..] + [x];
      assert (s + [x])[0] == s[0];
      FilterAppend(s[1..], x, p);
    }
  }

  /** The sequence without its element at index `i`. */
  function RemoveAt<T>(s: seq<T>, i: nat): (r: seq<T>)
    requires i < |s|
    ensures |r| == |s| - 1
    ensures forall j :: 0 <= j < i ==> r[j] == s[j]
    ensures forall j :: i <= j < |r| ==> r[j] == s[j + 1]
  {
    s[..i] + s[i + 1..]
  }

  /** A query answer: the status and the documents sent back. */
  datatype Listing<T> = Listing(status: Status, items: seq<T>)
}

=== FILE: calendar.dfy ===
/**
  The calendar arithmetic behind `new Date(year, month, day)` and the
  `{day, month, year}` query window that four handlers build with the same
  inline code.

  A day is identified by its day number: days since 1970-01-01, computed as
  ECMAScript's MakeDay does (DayFromYear plus the days before the month).
  A civil date (year, zero-based month, day of month) is what `getDate()`
  and friends read back. Dates built by the handlers are local midnights;
  an instant is a millisecond count, and midnight of a day is its day number
  times the milliseconds in a day.
 */
module Calendar {
  import opened Base

  const MsPerDay: int := 86_400_000

  predicate IsLeapYear(y: int) {
    y % 4 == 0 && (y % 100 != 0 || y % 400 == 0)
  }

  function DaysInYear(y: int): int {
    if IsLeapYear(y) then 366 else 365
  }

  /** Days in zero-based month `m` of year `y` (Gregorian, proleptic). */
  function DaysInMonth(y: int, m: int): (n: int)
    requires 0 <= m < 12
    ensures 28 <= n <= 31
    ensures n == 29 <==> m == 1 && IsLeapYear(y)
  {
    if m == 1 then (if IsLeapYear(y) then 29 else 28)
    else if m == 3 || m == 5 || m == 8 || m == 10 then 30
    else 31
  }

  /** Days of year `y` that precede the first of zero-based month `m`. */
  function DaysBeforeMonth(y: int, m: int): int
    requires 0 <= m < 12
  {
    var common :=
      if m < 6 then
        (if m == 0 then 0 else if m == 1 then 31 else if m == 2 then 59 else if m == 3 then 90 else if m == 4 then 120 else 151)
      else
        (if m == 6 then 181 else if m == 7 then 212 else if m == 8 then 243 else if m == 9 then 273 else if m == 10 then 304 else 334);
    common + (if m >= 2 && IsLeapYear(y) then 1 else 0)
  }

  /** Day number of January 1st of year `y` (ECMAScript DayFromYear). */
  function DayFromYear(y: int): int {
    365 * (y - 1970) + (y - 1969) / 4 - (y - 1901) / 100 + (y - 1601) / 400
  }

  /*
    Months are counted on one absolute scale, `12 * year + zeroBasedMonth`,
    which is exactly how the Date constructor normalises an out-of-range
    month: month 12 of year y is month 0 of year y + 1, month -1 is
    December of year y - 1.
  */

  function YearOf(a: int): int { a / 12 }

  function MonthOf(a: int): (m: int)
    ensures 0 <= m < 12
  {
    a % 12
  }

  function DaysInMonthAt(a: int): (n: int)
    ensures 28 <= n <= 31
  {
    DaysInMonth(YearOf(a), MonthOf(a))
  }

  /** Day number of the first day of absolute month `a`. */
  function MonthStart(a: int): int {
    DayFromYear(YearOf(a)) + DaysBeforeMonth(YearOf(a), MonthOf(a))
  }

  /** ECMAScript MakeDay on integer arguments: the day number `new Date(y, m, d)` denotes. */
  function MakeDay(y: int, m: int, d: int): int {
    MonthStart(12 * y + m) + d - 1
  }

  /** The Date constructor maps a year argument in 0..99 to 1900..1999. */
  function MakeFullYear(y: int): (r: int)
    ensures 0 <= y <= 99 ==> r == 1900 + y
    ensures !(0 <= y <= 99) ==> r == y
  {
    if 0 <= y <= 99 then 1900 + y else y
  }

  /** A calendar date with a zero-based month, as `getFullYear/getMonth/getDate` report it. */
  datatype CivilDate = CivilDate(year: int, month: int, day: int) {
    predicate Valid() {
      0 <= month < 12 && 1 <= day <= DaysInMonth(year, month)
    }
  }

  /** A civil date that exists: what a Date object holds. */
  type Date = c: CivilDate | c.Valid() witness CivilDate(1970, 0, 1)

  /** The day number of a date. */
  function DayNumber(c: Date): int {
    DayFromYear(c.year) + DaysBeforeMonth(c.year, c.month) + c.day - 1
  }

  /** Midnight (local) at the start of the day, in milliseconds. */
  function Midnight(c: Date): int {
    DayNumber(c) * MsPerDay
  }

  lemma DaysBeforeMonthStep(y: int, m: int)
    requires 0 <= m < 11
    ensures DaysBeforeMonth(y, m + 1) == DaysBeforeMonth(y, m) + DaysInMonth(y, m)
  {
  }

  lemma DaysBeforeDecember(y: int)
    ensures DaysBeforeMonth(y, 11) + DaysInMonth(y, 11) == DaysInYear(y)
  {
  }

  /*
    The three terms of DayFromYear each grow by one, from one year to the
    next, exactly when the new year is a multiple of their divisor.
  */
  lemma LeapTermStep4(y: int)
    ensures (y - 1968) / 4 - (y - 1969) / 4 == if y % 4 == 0 then 1 else 0
  {
  }

  lemma LeapTermStep100(y: int)
    ensures (y - 1900) / 100 - (y - 1901) / 100 == if y % 100 == 0 then 1 else 0
  {
  }

  lemma LeapTermStep400(y: int)
    ensures (y - 1600) / 400 - (y - 1601) / 400 == if y % 400 == 0 then 1 else 0
  {
  }

  /** The leap-year rule, as a sum of the three divisibility terms. */
  lemma DaysInYearTerms(y: int, t4: int, t100: int, t400: int)
    requires t4 == (if y % 4 == 0 then 1 else 0)
    requires t100 == (if y % 100 == 0 then 1 else 0)
    requires t400 == (if y % 400 == 0 then 1 else 0)
    ensures DaysInYear(y) == 365 + t4 - t100 + t400
  {
    if y % 400 == 0 {
      assert y % 100 == 0 && y % 4 == 0;
    } else if y % 100 == 0 {
      assert y % 4 == 0;
    }
  }

  /** Consecutive January firsts are a year apart. */
  lemma DayFromYearStep(y: int)
    ensures DayFromYear(y + 1) == DayFromYear(y) + DaysInYear(y)
  {
    LeapTermStep4(y);
    LeapTermStep100(y);
    LeapTermStep400(y);
    DaysInYearTerms(y, (y - 1968) / 4 - (y - 1969) / 4, (y - 1900) / 100 - (y - 1901) / 100, (y - 1600) / 400 - (y - 1601) / 400);
    assert DayFromYear(y + 1) == 365 * (y - 1969) + (y - 1968) / 4 - (y - 1900) / 100 + (y - 1600) / 400;
  }

  /** Consecutive month starts are one month-length apart. */
  lemma MonthStartStep(a: int)
    ensures MonthStart(a + 1) == MonthStart(a) + DaysInMonthAt(a)
  {
    if MonthOf(a) == 11 {
      assert YearOf(a + 1) == YearOf(a) + 1 && MonthOf(a + 1) == 0;
      DayFromYearStep(YearOf(a));
      DaysBeforeDecember(YearOf(a));
    } else {
      assert YearOf(a + 1) == YearOf(a) && MonthOf(a + 1) == MonthOf(a) + 1;
      DaysBeforeMonthStep(YearOf(a), MonthOf(a));
    }
  }

  lemma {:induction false} MonthStartMonotone(a: int, b: int)
    requires a <= b
    ensures MonthStart(a) <= MonthStart(b)
    decreases b - a
  {
    if a < b {
      MonthStartMonotone(a, b - 1);
      MonthStartStep(b - 1);
    }
  }

  /**
    The civil date that day `d` of absolute month `a` falls on, `d` being
    any integer: day 0 is the last day of the previous month, day 32 of a
    31-day month is the 1st of the next. This is the normalisation the Date
    constructor performs; NormalizeDayNumber shows it lands on the day
    MakeDay computes.
   */
  function NormalizeDay(a: int, d: int): Date
    decreases if d < 1 then 1 else 0, if d < 1 then -d else d
  {
    if d < 1 then NormalizeDay(a - 1, d + DaysInMonthAt(a - 1))
    else if d > DaysInMonthAt(a) then NormalizeDay(a + 1, d - DaysInMonthAt(a))
    else CivilDate(YearOf(a), MonthOf(a), d)
  }

  /** Normalising moves between months without changing the day denoted. */
  lemma {:induction false} NormalizeDayNumber(a: int, d: int)
    ensures DayNumber(NormalizeDay(a, d)) == MonthStart(a) + d - 1
    decreases if d < 1 then 1 else 0, if d < 1 then -d else d
  {
    if d < 1 {
      NormalizeDayNumber(a - 1, d + DaysInMonthAt(a - 1));
      MonthStartStep(a - 1);
    } else if d > DaysInMonthAt(a) {
      NormalizeDayNumber(a + 1, d - DaysInMonthAt(a));
      MonthStartStep(a);
    } else {
      assert 12 * YearOf(a) + MonthOf(a) == a;
    }
  }

  /** `new Date(y, m, d)` with integer arguments, read back as a civil date. */
  function JsDate(y: int, m: int, d: int): Date {
    NormalizeDay(12 * MakeFullYear(y) + m, d)
  }

  /** The date `new Date(y, m, d)` builds is the day ECMAScript's MakeDay computes. */
  lemma JsDateDay(y: int, m: int, d: int)
    ensures DayNumber(JsDate(y, m, d)) == MakeDay(MakeFullYear(y), m, d)
    ensures DayNumber(JsDate(y, m, d)) == MonthStart(12 * MakeFullYear(y) + m) + d - 1
  {
    NormalizeDayNumber(12 * MakeFullYear(y) + m, d);
  }

  /** A day already inside its month needs no normalisation. */
  lemma NormalizeInRange(a: int, d: int)
    requires 1 <= d <= DaysInMonthAt(a)
    ensures NormalizeDay(a, d) == CivilDate(YearOf(a), MonthOf(a), d)
  {
  }

  /**
    Day 0 of a month is the last day of the month before it, so
    `new Date(y, m, 0).getDate()` is the length of month `m - 1`.
   */
  lemma DayZeroIsLastDayOfPreviousMonth(y: int, m: int)
    ensures var a := 12 * MakeFullYear(y) + m - 1;
      JsDate(y, m, 0) == CivilDate(YearOf(a), MonthOf(a), DaysInMonthAt(a))
  {
    var a := 12 * MakeFullYear(y) + m;
    assert JsDate(y, m, 0) == NormalizeDay(a - 1, DaysInMonthAt(a - 1));
    NormalizeInRange(a - 1, DaysInMonthAt(a - 1));
  }

  /** The optional `day`, `month`, `year` query parameters. A present parameter is a non-empty string, hence truthy even when it reads "0". */
  datatype DateQuery = DateQuery(day: Option<int>, month: Option<int>, year: Option<int>) {
    predicate NoneGiven() {
      day.None? && month.None? && year.None?
    }
  }

  /** The inclusive range `{$gte: start, $lte: end}` of local midnights. */
  datatype Window = Window(start: Date, end: Date)

  /** `new Date(year || 9999, month ? month : 12, 0).getDate()`. */
  function LastDayParam(q: DateQuery): int {
    JsDate(q.year.GetOr(9999), if q.month.Some? then q.month.value else 12, 0).day
  }

  /**
    The date window every filtered query builds: no window when no parameter
    is given; otherwise the start is (year or 1970, month - 1 or January,
    day or 1) and the end is (year or 9999, month - 1 or December, day or the
    last day of that month), each normalised by the Date constructor.
   */
  function DateWindow(q: DateQuery): (w: Option<Window>)
    ensures w.None? <==> q.NoneGiven()
  {
    if q.NoneGiven() then None
    else
      var start := JsDate(q.year.GetOr(1970), if q.month.Some? then q.month.value - 1 else 0, q.day.GetOr(1));
      var end := JsDate(q.year.GetOr(9999), if q.month.Some? then q.month.value - 1 else 11, q.day.GetOr(LastDayParam(q)));
      Some(Window(start, end))
  }

  predicate InWindow(t: int, w: Window) {
    Midnight(w.start) <= t <= Midnight(w.end)
  }

  /** Whether an instant passes the optional date filter; no window means no filter. */
  predicate Admits(w: Option<Window>, t: int) {
    w.None? || InWindow(t, w.value)
  }

  /** The absolute month of the window's start argument, and of its end argument. */
  function StartMonth(q: DateQuery): int {
    12 * MakeFullYear(q.year.GetOr(1970)) + (if q.month.Some? then q.month.value - 1 else 0)
  }

  function EndMonth(q: DateQuery): int {
    12 * MakeFullYear(q.year.GetOr(9999)) + (if q.month.Some? then q.month.value - 1 else 11)
  }

  /** With no parameter the filter admits every instant. */
  lemma NoParamsNoFilter(q: DateQuery, t: int)
    requires q.NoneGiven()
    ensures Admits(DateWindow(q), t)
  {
  }

  /** The start is `new Date(year || 1970, month ? month - 1 : 0, day || 1)`, read as a day number. */
  lemma WindowStartDay(q: DateQuery)
    requires !q.NoneGiven()
    ensures DayNumber(DateWindow(q).value.start) == MonthStart(StartMonth(q)) + q.day.GetOr(1) - 1
  {
    var y, m, d := q.year.GetOr(1970), (if q.month.Some? then q.month.value - 1 else 0), q.day.GetOr(1);
    assert DateWindow(q).value.start == JsDate(y, m, d);
    JsDateDay(y, m, d);
  }

  /** The day the end falls back on when no day is given is the length of the end month. */
  lemma LastDayIsEndMonthLength(q: DateQuery)
    ensures LastDayParam(q) == DaysInMonthAt(EndMonth(q))
  {
    DayZeroIsLastDayOfPreviousMonth(q.year.GetOr(9999), if q.month.Some? then q.month.value else 12);
  }

  /**
    The end is `new Date(year || 9999, month ? month - 1 : 11, day || <last day>)`:
    day `day`, or the last day, of the end month.
   */
  lemma WindowEndArgs(q: DateQuery)
    requires !q.NoneGiven()
    ensures DateWindow(q).value.end == NormalizeDay(EndMonth(q), q.day.GetOr(DaysInMonthAt(EndMonth(q))))
  {
    LastDayIsEndMonthLength(q);
  }

  lemma WindowEndDay(q: DateQuery)
    requires !q.NoneGiven()
    ensures DayNumber(DateWindow(q).value.end) == MonthStart(EndMonth(q)) + q.day.GetOr(DaysInMonthAt(EndMonth(q))) - 1
  {
    WindowEndArgs(q);
    NormalizeDayNumber(EndMonth(q), q.day.GetOr(DaysInMonthAt(EndMonth(q))));
  }

  /** The window is never empty: its start is not after its end. */
  lemma WindowOrdered(q: DateQuery)
    requires !q.NoneGiven()
    ensures DayNumber(DateWindow(q).value.start) <= DayNumber(DateWindow(q).value.end)
    ensures Midnight(DateWindow(q).value.start) <= Midnight(DateWindow(q).value.end)
  {
    MonthStartMonotone(StartMonth(q), EndMonth(q));
    WindowStartDay(q);
    WindowEndDay(q);
  }

  /**
    Without a day parameter the end is the LAST day of the end month, but
    at midnight: the rest of that day lies outside the window.
   */
  lemma WindowEndIsLastDayMidnight(q: DateQuery)
    requires !q.NoneGiven() && q.day.None?
    ensures DateWindow(q).value.end.day == DaysInMonth(DateWindow(q).value.end.year, DateWindow(q).value.end.month)
    ensures !InWindow(Midnight(DateWindow(q).value.end) + 1, DateWindow(q).value)
  {
    WindowEndArgs(q);
    NormalizeInRange(EndMonth(q), DaysInMonthAt(EndMonth(q)));
  }

  /** Giving all three parameters collapses the window to the single instant of that day's midnight. */
  lemma FullDateIsOneInstant(q: DateQuery, t: int)
    requires q.day.Some? && q.month.Some? && q.year.Some?
    ensures DateWindow(q).value.start == DateWindow(q).value.end
    ensures InWindow(t, DateWindow(q).value) <==> t == Midnight(DateWindow(q).value.start)
  {
  }

  /** March 2024: from 2024-03-01 to 2024-03-31, both at midnight. */
  lemma MonthWindowExample()
    ensures DateWindow(DateQuery(None, Some(3), Some(2024))) == Some(Window(CivilDate(2024, 2, 1), CivilDate(2024, 2, 31)))
  {
    DayZeroIsLastDayOfPreviousMonth(2024, 3);
    NormalizeInRange(24290, 1);
    NormalizeInRange(24290, 31);
  }

  /** February of a leap year ends on the 29th. */
  lemma LeapFebruaryExample()
    ensures DateWindow(DateQuery(None, Some(2), Some(2024))).value.end == CivilDate(2024, 1, 29)
  {
    DayZeroIsLastDayOfPreviousMonth(2024, 2);
    NormalizeInRange(24289, 29);
  }

  /** A two-digit year is read as 19xx: year 24 spans all of 1924. */
  lemma TwoDigitYearExample()
    ensures DateWindow(DateQuery(None, None, Some(24))).value == Window(CivilDate(1924, 0, 1), CivilDate(1924, 11, 31))
  {
    DayZeroIsLastDayOfPreviousMonth(24, 12);
    NormalizeInRange(23088, 1);
    NormalizeInRange(23099, 31);
  }
}

=== FILE: models.dfy ===
/**
  The five document schemas (User, Alert, CompletedAlert, Statistic,
  GeneralStatistic), the comment default, and the store the handlers share.
 */
module Models {
  import opened Base

  /** A document id (ObjectId); the store hands them out in increasing order. */
  type Id = nat

  /** A latitude or longitude: a JavaScript number copied verbatim, never interpreted. */
  type Coord = int

  /** The `rol` enum: "admin" or "user"; registration always sets it, so its default never applies. */
  datatype Role = Admin | Member

  /**
    A stored user. Every field is required by the schema; `contrasena`
    holds whatever the save hook left there (the hash of the password).
   */
  datatype User = User(
    id: Id,
    nombre: string,
    apellido: string,
    dni: string,
    correo: string,
    telefono: string,
    contrasena: string,
    direccion: string,
    foto: string,
    rol: Role,
    createdAt: int)

  /**
    The `pre("save")` hook: the password field is replaced by its hash when
    it was modified, and left as stored otherwise. `hash` stands for bcrypt
    with a fresh salt.
   */
  function PreSave(u: User, passwordModified: bool, hash: string -> string): (r: User)
    ensures r.(contrasena := u.contrasena) == u
    ensures passwordModified ==> r.contrasena == hash(u.contrasena)
    ensures !passwordModified ==> r == u
  {
    if passwordModified then u.(contrasena := hash(u.contrasena)) else u
  }

  /** `userInfo` of an alert: every sub-field optional. */
  datatype UserInfo = UserInfo(
    nombre: Option<string>,
    apellido: Option<string>,
    dni: Option<string>,
    correo: Option<string>,
    telefono: Option<string>,
    direccion: Option<string>,
    foto: Option<string>)

  /** `userInfo` of a completed alert: optional sub-fields, `foto` but no `dni`. */
  datatype ArchivedInfo = ArchivedInfo(
    nombre: Option<string>,
    apellido: Option<string>,
    correo: Option<string>,
    direccion: Option<string>,
    telefono: Option<string>,
    foto: Option<string>)

  /** Only the sub-fields the completed-alert schema declares survive a save. */
  function ToArchived(info: UserInfo): ArchivedInfo {
    ArchivedInfo(info.nombre, info.apellido, info.correo, info.direccion, info.telefono, info.foto)
  }

  /** An alert; `createdAt` comes from the schema's timestamps. */
  datatype Alert = Alert(
    id: Id,
    userId: Id,
    lat: Coord,
    lng: Coord,
    isActive: bool,
    userInfo: UserInfo,
    createdAt: int)

  /** An archived alert. */
  datatype CompletedAlert = CompletedAlert(
    userId: Id,
    lat: Coord,
    lng: Coord,
    userInfo: ArchivedInfo,
    completedAt: int,
    comment: string)

  const DefaultComment: string := "Sin comentario"

  /** One recorded user action. */
  datatype Statistic = Statistic(userId: Id, action: string, timestamp: int)

  /** A per-action counter (GeneralStatistic): only `action` and `count`. */
  datatype Counter = Counter(action: string, count: int)

  /** What the socket server broadcasts; each carries the alert document as sent. */
  datatype Event =
    | NewAlert(alert: Alert)
    | AlertUpdate(alert: Alert)
    | AlertDeactivated(alerta: Alert)

  /** The collections, the broadcast log, and the next id the store will hand out. */
  datatype Db = Db(
    users: seq<User>,
    alerts: seq<Alert>,
    completed: seq<CompletedAlert>,
    statistics: seq<Statistic>,
    counters: seq<Counter>,
    events: seq<Event>,
    nextId: Id)

  const EmptyDb: Db := Db([], [], [], [], [], [], 0)

  /** A handler's outcome: the store after it, the HTTP status, and the events it broadcast. */
  datatype Response = Response(db: Db, status: Status, emitted: seq<Event>)

  /** Ends a handler: broadcasts `emitted` (appending it to the log) and answers `status`. */
  function Reply(db: Db, status: Status, emitted: seq<Event>): (r: Response)
    ensures r.db.events == db.events + emitted && r.emitted == emitted
    ensures r.db.(events := db.events) == db
  {
    Response(db.(events := db.events + emitted), status, emitted)
  }

  /** `User.findById(id)`: the user with that id, if any. */
  function FindUser(users: seq<User>, id: Id): (r: Option<User>)
    ensures r.Some? ==> r.value in users && r.value.id == id
    ensures r.None? ==> forall u :: u in users ==> u.id != id
  {
    match FindIndex(users, (u: User) => u.id == id)
    case Some(i) => Some(users[i])
    case None => None
  }

  /** No two documents of the sequence share an id, and all ids were handed out already. */
  predicate AlertIdsFresh(alerts: seq<Alert>, nextId: Id) {
    && (forall i, j :: 0 <= i < j < |alerts| ==> alerts[i].id != alerts[j].id)
    && (forall i :: 0 <= i < |alerts| ==> alerts[i].id < nextId)
  }

  predicate UserIdsFresh(users: seq<User>, nextId: Id) {
    && (forall i, j :: 0 <= i < j < |users| ==> users[i].id != users[j].id)
    && (forall i :: 0 <= i < |users| ==> users[i].id < nextId)
  }
}

=== FILE: server.dfy ===
/**
  The server as a sequential state machine: each state-changing request
  runs to completion before the next starts, and the store keeps the
  invariants the handlers rely on.
 */
module Server {
  import opened Base
  import opened Calendar
  import opened Models
  import opened AlertRoutes
  import opened StatsRoutes
  import opened AuthRoutes

  /** The requests that write to the store (the reads leave it as it is). */
  datatype Request =
    | RaiseAlert(body: AlertBody)
    | DeactivateAlert(userId: Option<Id>)
    | CompleteAlert(alertId: Option<Id>)
    | RegisterUser(form: RegisterForm, foto: Option<string>)
    | RecordAction(caller: Caller, action: string, timestamp: Option<int>)

  /** Runs one request at time `now`; `hash` stands for bcrypt. */
  function Apply(db: Db, req: Request, now: int, hash: string -> string): Response {
    match req
    case RaiseAlert(body) => Raise(db, body, now)
    case DeactivateAlert(userId) => Deactivate(db, userId, now)
    case CompleteAlert(alertId) => Complete(db, alertId, now)
    case RegisterUser(form, foto) =>
      var r := Register(db, form, foto, now, hash);
      Response(r.db, r.status, [])
    case RecordAction(caller, action, timestamp) => RecordStatistic(db, caller, action, timestamp, now)
  }

  /** Every alert belongs to a registered user. */
  predicate AlertsOwned(db: Db) {
    forall i :: 0 <= i < |db.alerts| ==> FindUser(db.users, db.alerts[i].userId).Some?
  }

  /**
    Only active alerts stay in the collection: raising creates active
    alerts, and deactivating or completing one archives it away.
   */
  predicate AlertsActive(db: Db) {
    forall i :: 0 <= i < |db.alerts| ==> db.alerts[i].isActive
  }

  /** What every handler preserves. */
  predicate Inv(db: Db) {
    && AlertIdsFresh(db.alerts, db.nextId)
    && UserIdsFresh(db.users, db.nextId)
    && AtMostOneActive(db.alerts)
    && DirectoryWellFormed(db.users)
    && AlertsOwned(db)
    && AlertsActive(db)
    && CountersConsistent(db.statistics, db.counters)
  }

  lemma EmptyDbSatisfiesInv()
    ensures Inv(EmptyDb)
  {
  }

  /** The per-alert parts of the invariant survive deleting one alert. */
  lemma RemoveAtKeepsAlertInvariants(db: Db, i: nat)
    requires i < |db.alerts| && AlertIdsFresh(db.alerts, db.nextId) && AtMostOneActive(db.alerts) && AlertsOwned(db)
    ensures var d := db.(alerts := RemoveAt(db.alerts, i));
      AlertIdsFresh(d.alerts, d.nextId) && AtMostOneActive(d.alerts) && AlertsOwned(d)
  {
    var s := RemoveAt(db.alerts, i);
    assert forall j :: 0 <= j < |s| ==> s[j] == db.alerts[if j < i then j else j + 1];
  }

  /** Deleting index `i` of `t` keeps only elements of `s` when the two differ at most at `i`. */
  lemma RemoveAtKeepsOthers(s: seq<Alert>, t: seq<Alert>, i: nat)
    requires i < |s| == |t| && forall j :: 0 <= j < |s| && j != i ==> t[j] == s[j]
    ensures forall j :: 0 <= j < |s| - 1 ==> RemoveAt(t, i)[j] == s[if j < i then j else j + 1]
  {
  }

  /** A user registered later does not orphan any alert. */
  lemma FindUserAfterAppend(users: seq<User>, u: User, id: Id)
    requires FindUser(users, id).Some?
    ensures FindUser(users + [u], id).Some?
  {
    var v := FindUser(users, id).value;
    assert v in users + [u];
  }

  lemma RaiseKeepsInv(db: Db, body: AlertBody, now: int)
    requires Inv(db)
    ensures Inv(Raise(db, body, now).db)
  {
    RaiseKeepsOneActive(db, body, now);
    var r := Raise(db, body, now);
    if WellFormedBody(body) && FindUser(db.users, body.userId.value).Some? {
      var userId := body.userId.value;
      match FindActive(db.alerts, userId)
      case Some(i) =>
        var updated := db.alerts[i].(lat := body.lat.value, lng := body.lng.value);
        assert r.db == db.(alerts := db.alerts[i := updated], events := r.db.events);
        MovedAlertKeepsIdsAndOwners(db, i, updated);
      case None =>
        var created := Alert(db.nextId, userId, body.lat.value, body.lng.value, true, RaiseSnapshot(FindUser(db.users, userId).value), now);
        assert r.db == db.(alerts := db.alerts + [created], nextId := db.nextId + 1, events := r.db.events);
        AppendedAlertKeepsIdsAndOwners(db, created);
    }
  }

  lemma MovedAlertKeepsIdsAndOwners(db: Db, i: nat, updated: Alert)
    requires i < |db.alerts| && updated.id == db.alerts[i].id && updated.userId == db.alerts[i].userId
    requires AlertIdsFresh(db.alerts, db.nextId) && AlertsOwned(db)
    ensures var d := db.(alerts := db.alerts[i := updated]);
      AlertIdsFresh(d.alerts, d.nextId) && AlertsOwned(d)
  {
  }

  lemma AppendedAlertKeepsIdsAndOwners(db: Db, created: Alert)
    requires created.id == db.nextId && FindUser(db.users, created.userId).Some?
    requires AlertIdsFresh(db.alerts, db.nextId) && AlertsOwned(db)
    ensures var d := db.(alerts := db.alerts + [created], nextId := db.nextId + 1);
      AlertIdsFresh(d.alerts, d.nextId) && AlertsOwned(d)
  {
  }

  lemma DeactivateKeepsInv(db: Db, userId: Option<Id>, now: int)
    requires Inv(db)
    ensures Inv(Deactivate(db, userId, now).db)
  {
    var r := Deactivate(db, userId, now);
    if userId.Some? && FindActive(db.alerts, userId.value).Some? {
      var i := FindActive(db.alerts, userId.value).value;
      var flipped := db.(alerts := db.alerts[i := db.alerts[i].(isActive := false)]);
      assert forall j :: 0 <= j < |db.alerts| ==> flipped.alerts[j].id == db.alerts[j].id && flipped.alerts[j].userId == db.alerts[j].userId;
      assert AlertIdsFresh(flipped.alerts, flipped.nextId) && AtMostOneActive(flipped.alerts) && AlertsOwned(flipped);
      var user := FindUser(db.users, db.alerts[i].userId);
      if user.Some? {
        ArchivalRemovesExactlyThatAlert(flipped, i, CopySnapshot(user.value), now);
        RemoveAtKeepsAlertInvariants(flipped, i);
        RemoveAtKeepsOthers(db.alerts, flipped.alerts, i);
      }
    }
  }

  lemma CompleteKeepsInv(db: Db, alertId: Option<Id>, now: int)
    requires Inv(db)
    ensures Inv(Complete(db, alertId, now).db)
  {
    if alertId.Some? && FindAlert(db.alerts, alertId.value).Some? {
      var i := FindAlert(db.alerts, alertId.value).value;
      var user := FindUser(db.users, db.alerts[i].userId);
      if user.Some? {
        ArchivalRemovesExactlyThatAlert(db, i, CopySnapshot(user.value), now);
        RemoveAtKeepsAlertInvariants(db, i);
        RemoveAtKeepsOthers(db.alerts, db.alerts, i);
      }
    }
  }

  lemma RegisterKeepsInv(db: Db, form: RegisterForm, foto: Option<string>, now: int, hash: string -> string)
    requires Inv(db)
    ensures Inv(Register(db, form, foto, now, hash).db)
  {
    RegisterKeepsDirectoryWellFormed(db, form, foto, now, hash);
    var r := Register(db, form, foto, now, hash);
    if r.status == Created {
      var n := |db.users|;
      assert r.db.users == db.users + [r.db.users[n]];
      forall i | 0 <= i < |db.alerts| ensures FindUser(r.db.users, db.alerts[i].userId).Some? {
        FindUserAfterAppend(db.users, r.db.users[n], db.alerts[i].userId);
      }
    }
  }

  lemma RecordKeepsInv(db: Db, caller: Caller, action: string, timestamp: Option<int>, now: int)
    requires Inv(db)
    ensures Inv(RecordStatistic(db, caller, action, timestamp, now).db)
  {
    RecordKeepsCountersConsistent(db, caller, action, timestamp, now);
  }

  /** Every request keeps the invariant. */
  lemma ApplyKeepsInv(db: Db, req: Request, now: int, hash: string -> string)
    requires Inv(db)
    ensures Inv(Apply(db, req, now, hash).db)
  {
    match req
    case RaiseAlert(body) => RaiseKeepsInv(db, body, now);
    case DeactivateAlert(userId) => DeactivateKeepsInv(db, userId, now);
    case CompleteAlert(alertId) => CompleteKeepsInv(db, alertId, now);
    case RegisterUser(form, foto) => RegisterKeepsInv(db, form, foto, now, hash);
    case RecordAction(caller, action, timestamp) => RecordKeepsInv(db, caller, action, timestamp, now);
  }

  /** A request together with the time it is handled. */
  datatype Timed = Timed(req: Request, now: int)

  /** Handles the requests one after the other. */
  function Run(db: Db, reqs: seq<Timed>, hash: string -> string): Db
    decreases |reqs|
  {
    if |reqs| == 0 then db
    else Run(Apply(db, reqs[0].req, reqs[0].now, hash).db, reqs[1..], hash)
  }

  /**
    From an empty store, every sequence of requests leaves a store where no
    user has two active alerts, ids are unique, e-mails and DNIs are unique,
    exactly the first user is admin, every alert has an owner, and each
    action's counter equals its number of records.
   */
  lemma {:induction false} RunKeepsInv(db: Db, reqs: seq<Timed>, hash: string -> string)
    requires Inv(db)
    ensures Inv(Run(db, reqs, hash))
    decreases |reqs|
  {
    if |reqs| > 0 {
      ApplyKeepsInv(db, reqs[0].req, reqs[0].now, hash);
      RunKeepsInv(Apply(db, reqs[0].req, reqs[0].now, hash).db, reqs[1..], hash);
    }
  }

  lemma ReachableStoresKeepInv(reqs: seq<Timed>, hash: string -> string)
    ensures Inv(Run(EmptyDb, reqs, hash))
  {
    EmptyDbSatisfiesInv();
    RunKeepsInv(EmptyDb, reqs, hash);
  }

  /**
    In a reachable store `GET /` returns exactly the active alerts, and
    every alert `GET /:userId` returns is active.
   */
  lemma ListedAlertsAreActive(db: Db, userId: Id, q: DateQuery)
    requires Inv(db)
    ensures ListAlerts(db).items == Filter(db.alerts, (a: Alert) => a.isActive)
    ensures forall a :: a in ListUserAlerts(db, userId, q).items ==> a.isActive
  {
    FilterAll(db.alerts, (a: Alert) => a.isActive);
  }

  /** In a reachable store the owner of an alert is always found, so deactivating and completing never answer 500. */
  lemma NoServerErrorUnderInv(db: Db, userId: Option<Id>, alertId: Option<Id>, now: int)
    requires Inv(db)
    ensures Deactivate(db, userId, now).status != ServerError
    ensures Complete(db, alertId, now).status != ServerError
  {
  }
}

=== FILE: stats_routes.dfy ===
/**
  The statistics router: recording one user action together with the
  per-action counter upsert, and the two read queries.
 */
module StatsRoutes {
  import opened Base
  import opened Calendar
  import opened Models

  /**
    The authenticated identity `verifyToken` attaches to the request: None
    when the bearer token is missing or does not verify (both a 401).
   */
  type Caller = Option<Id>

  /** Number of recorded statistics for `action`. */
  function CountOf(stats: seq<Statistic>, action: string): (n: nat)
    ensures n <= |stats|
  {
    if |stats| == 0 then 0
    else CountOf(stats[..|stats| - 1], action) + (if stats[|stats| - 1].action == action then 1 else 0)
  }

  /** The count is the size of the `find({action})` answer. */
  lemma {:induction false} CountOfIsFilterSize(stats: seq<Statistic>, action: string)
    ensures CountOf(stats, action) == |Filter(stats, (s: Statistic) => s.action == action)|
  {
    if |stats| > 0 {
      var init := stats[..|stats| - 1];
      var last := stats[|stats| - 1];
      var p := (s: Statistic) => s.action == action;
      CountOfIsFilterSize(init, action);
      assert stats == init + [last];
      FilterAppend(init, last, p);
      assert |Filter(stats, p)| == |Filter(init, p)| + (if p(last) then 1 else 0);
    }
  }

  /** `GeneralStatistic.findOne({action})`. */
  function FindCounter(counters: seq<Counter>, action: string): (r: Option<nat>)
    ensures r.Some? ==> r.value < |counters| && counters[r.value].action == action
    ensures r.None? ==> forall j :: 0 <= j < |counters| ==> counters[j].action != action
  {
    FindIndex(counters, (c: Counter) => c.action == action)
  }

  /** The value a reader sees for `action`: its counter, or nothing counted yet. */
  function CounterValue(counters: seq<Counter>, action: string): int {
    match FindCounter(counters, action)
    case Some(i) => counters[i].count
    case None => 0
  }

  /**
    The counters agree with the records: one counter per action (the
    unique index), each holding its action's number of records, and a
    counter for every action that has records.
   */
  predicate CountersConsistent(stats: seq<Statistic>, counters: seq<Counter>) {
    && (forall i, j :: 0 <= i < j < |counters| ==> counters[i].action != counters[j].action)
    && (forall i :: 0 <= i < |counters| ==> counters[i].count == CountOf(stats, counters[i].action))
    && (forall k :: 0 <= k < |stats| ==> FindCounter(counters, stats[k].action).Some?)
  }

  /** Under consistency every action's counter value is its number of records, counted or not. */
  lemma {:induction false} ConsistentCounterIsCount(stats: seq<Statistic>, counters: seq<Counter>, action: string)
    requires CountersConsistent(stats, counters)
    ensures CounterValue(counters, action) == CountOf(stats, action)
  {
    if FindCounter(counters, action).None? {
      NoCounterNoRecords(stats, counters, action);
    }
  }

  lemma {:induction false} NoCounterNoRecords(stats: seq<Statistic>, counters: seq<Counter>, action: string)
    requires forall k :: 0 <= k < |stats| ==> FindCounter(counters, stats[k].action).Some?
    requires FindCounter(counters, action).None?
    ensures CountOf(stats, action) == 0
  {
    if |stats| > 0 {
      var init := stats[..|stats| - 1];
      assert forall k :: 0 <= k < |init| ==> init[k] == stats[k];
      NoCounterNoRecords(init, counters, action);
    }
  }

  /** POST `/`: record one action of the caller and bump that action's counter. */
  function RecordStatistic(db: Db, caller: Caller, action: string, timestamp: Option<int>, now: int): (r: Response)
    ensures r.emitted == [] && r.db.events == db.events
    ensures IsError(r.status) ==> r.db == db
    ensures r.db.(statistics := db.statistics, counters := db.counters) == db
  {
    if caller.None? then Reply(db, Unauthorized, [])
    else if action == "" then Reply(db, BadRequest, [])
    else
      // the userId always comes from the token, never from the body
      var statistic := Statistic(caller.value, action, timestamp.GetOr(now));
      var counters := match FindCounter(db.counters, action)
        case Some(i) => db.counters[i := db.counters[i].(count := db.counters[i].count + 1)]
        case None => db.counters + [Counter(action, 1)];
      Reply(db.(statistics := db.statistics + [statistic], counters := counters), Created, [])
  }

  /** Without a valid token the answer is a 401; without an action a 400; nothing is written either way. */
  lemma RecordRejects(db: Db, caller: Caller, action: string, timestamp: Option<int>, now: int)
    requires caller.None? || action == ""
    ensures RecordStatistic(db, caller, action, timestamp, now) == Response(db, if caller.None? then Unauthorized else BadRequest, [])
  {
    assert db.events + [] == db.events;
  }

  /**
    A successful record stores exactly one statistic, owned by the caller,
    stamped with the given timestamp or else the save time, and answers 201.
   */
  lemma RecordStoresOne(db: Db, caller: Id, action: string, timestamp: Option<int>, now: int)
    requires action != ""
    ensures var r := RecordStatistic(db, Some(caller), action, timestamp, now);
      && r.status == Created
      && |r.db.statistics| == |db.statistics| + 1 && r.db.statistics[..|db.statistics|] == db.statistics
      && r.db.statistics[|db.statistics|].userId == caller
      && r.db.statistics[|db.statistics|].action == action
      && (timestamp.Some? ==> r.db.statistics[|db.statistics|].timestamp == timestamp.value)
      && (timestamp.None? ==> r.db.statistics[|db.statistics|].timestamp == now)
  {
    var r := RecordStatistic(db, Some(caller), action, timestamp, now);
    assert r.db.statistics == db.statistics + [r.db.statistics[|db.statistics|]];
  }

  /**
    The upsert raises the action's counter value by exactly one and leaves
    every other action's value as it was.
   */
  lemma RecordBumpsCounter(db: Db, caller: Id, action: string, timestamp: Option<int>, now: int, other: string)
    requires action != "" && other != action
    ensures var r := RecordStatistic(db, Some(caller), action, timestamp, now);
      && CounterValue(r.db.counters, action) == CounterValue(db.counters, action) + 1
      && CounterValue(r.db.counters, other) == CounterValue(db.counters, other)
  {
    var r := RecordStatistic(db, Some(caller), action, timestamp, now);
    var after := r.db.counters;
    match FindCounter(db.counters, action)
    case Some(i) =>
      FindIndexAgrees(db.counters, after, (c: Counter) => c.action == action);
      FindIndexAgrees(db.counters, after, (c: Counter) => c.action == other);
    case None =>
      assert after == db.counters + [Counter(action, 1)];
      FindCounterAppend(db.counters, Counter(action, 1), action);
      FindCounterAppend(db.counters, Counter(action, 1), other);
  }

  /** Appending a counter changes the lookup only for an action not found before. */
  lemma {:induction false} FindCounterAppend(s: seq<Counter>, c: Counter, action: string)
    ensures FindCounter(s, action).Some? ==> FindCounter(s + [c], action) == FindCounter(s, action)
    ensures FindCounter(s, action).None? && c.action == action ==> FindCounter(s + [c], action) == Some(|s|)
    ensures FindCounter(s, action).None? && c.action != action ==> FindCounter(s + [c], action).None?
  {
    if |s| > 0 {
      assert (s + [c])[1..] == s[1..] + [c];
      FindCounterAppend(s[1..], c, action);
    }
  }

  /** Recording keeps the counters consistent with the records. */
  lemma RecordKeepsCountersConsistent(db: Db, caller: Caller, action: string, timestamp: Option<int>, now: int)
    requires CountersConsistent(db.statistics, db.counters)
    ensures var r := RecordStatistic(db, caller, action, timestamp, now);
      CountersConsistent(r.db.statistics, r.db.counters)
  {
    var r := RecordStatistic(db, caller, action, timestamp, now);
    if caller.Some? && action != "" {
      var stats := r.db.statistics;
      var counters := r.db.counters;
      var n := |db.statistics|;
      assert stats == db.statistics + [stats[n]];
      assert stats[..n] == db.statistics;
      assert forall a :: CountOf(stats, a) == CountOf(db.statistics, a) + (if a == action then 1 else 0);
      match FindCounter(db.counters, action)
      case Some(i) =>
        assert forall j :: 0 <= j < |counters| ==> counters[j].action == db.counters[j].action;
        forall k | 0 <= k < |stats|
          ensures FindCounter(counters, stats[k].action).Some?
        {
          FindIndexAgrees(db.counters, counters, (c: Counter) => c.action == stats[k].action);
          if k < n { assert stats[k] == db.statistics[k]; }
        }
      case None =>
        assert counters == db.counters + [Counter(action, 1)];
        assert CountOf(db.statistics, action) == 0 by {
          NoCounterNoRecords(db.statistics, db.counters, action);
        }
        forall k | 0 <= k < |stats|
          ensures FindCounter(counters, stats[k].action).Some?
        {
          FindCounterAppend(db.counters, Counter(action, 1), stats[k].action);
          if k < n { assert stats[k] == db.statistics[k]; }
        }
    }
  }

  /** Sequential records from an empty store: (caller, action, timestamp, save time). */
  datatype Record = Record(caller: Caller, action: string, timestamp: Option<int>, now: int)

  function RecordAll(db: Db, records: seq<Record>): Db
    decreases |records|
  {
    if |records| == 0 then db
    else
      var x := records[0];
      RecordAll(RecordStatistic(db, x.caller, x.action, x.timestamp, x.now).db, records[1..])
  }

  /**
    Starting from empty stores, after any sequence of record requests each
    action's counter equals the number of statistics with that action.
   */
  lemma {:induction false} CountersMatchRecords(records: seq<Record>, action: string)
    ensures var db := RecordAll(EmptyDb, records);
      CounterValue(db.counters, action) == CountOf(db.statistics, action)
  {
    RecordAllKeepsConsistent(EmptyDb, records);
    var db := RecordAll(EmptyDb, records);
    ConsistentCounterIsCount(db.statistics, db.counters, action);
  }

  lemma {:induction false} RecordAllKeepsConsistent(db: Db, records: seq<Record>)
    requires CountersConsistent(db.statistics, db.counters)
    ensures var d := RecordAll(db, records); CountersConsistent(d.statistics, d.counters)
    decreases |records|
  {
    if |records| > 0 {
      var x := records[0];
      RecordKeepsCountersConsistent(db, x.caller, x.action, x.timestamp, x.now);
      RecordAllKeepsConsistent(RecordStatistic(db, x.caller, x.action, x.timestamp, x.now).db, records[1..]);
    }
  }

  /**
    GET `/`: the caller's statistics whose timestamp lies in the date window;
    an empty answer is still a 200.
   */
  function MyStatistics(db: Db, caller: Caller, q: DateQuery): (r: Listing<Statistic>)
    ensures r.status == Unauthorized <==> caller.None?
    ensures r.status == Ok || r.status == Unauthorized
    ensures caller.None? ==> r.items == []
    ensures caller.Some? ==> forall s :: s in r.items <==> s in db.statistics && s.userId == caller.value && Admits(DateWindow(q), s.timestamp)
    ensures caller.Some? ==> forall s :: multiset(r.items)[s] == if s.userId == caller.value && Admits(DateWindow(q), s.timestamp) then multiset(db.statistics)[s] else 0
    ensures forall j :: 0 <= j < |r.items| ==> r.items[j].userId == caller.value
  {
    if caller.None? then Listing(Unauthorized, [])
    else
      var p := (s: Statistic) => s.userId == caller.value && Admits(DateWindow(q), s.timestamp);
      FilterCounts(db.statistics, p);
      Listing(Ok, Filter(db.statistics, p))
  }

  /** Two identical records both come back: the listing does not collapse equal documents. */
  lemma RepeatedRecordsBothListed(db: Db, caller: Id, q: DateQuery, s: Statistic)
    requires db.statistics == [s, s] && s.userId == caller && Admits(DateWindow(q), s.timestamp)
    ensures MyStatistics(db, Some(caller), q).items == [s, s]
  {
    var items := MyStatistics(db, Some(caller), q).items;
    assert multiset(items)[s] == 2;
    assert forall j :: 0 <= j < |items| ==> items[j] == s;
    assert |items| == 2 by {
      assert multiset(items) == multiset{s, s};
    }
  }

  /**
    GET `/general`: the counters. With date parameters the filter names a
    `timestamp` the counter schema lacks; what the store then does is a
    setting of the query layer, taken here as `strictQuery`: strict drops
    the unknown path and every counter comes back, non-strict compares a
    missing field and none matches.
   */
  function GeneralStatistics(db: Db, q: DateQuery, strictQuery: bool): (r: Listing<Counter>)
    ensures r.status == Ok
    ensures q.NoneGiven() ==> r.items == db.counters
    ensures !q.NoneGiven() && !strictQuery ==> r.items == []
    ensures strictQuery ==> r.items == db.counters
  {
    if q.NoneGiven() || strictQuery then Listing(Ok, db.counters)
    else Listing(Ok, [])
  }
}

=== FILE: upload.dfy ===
/**
  The picture upload rules: which original names the filter accepts (by
  the lower-cased last extension, as Node's posix `path.extname` finds
  it), the name a stored file gets, and the size cap.
 */
module Upload {
  import opened Base

  /* ---------- path.extname ---------- */

  /** The path without its trailing '/' characters. */
  function TrimTrailingSlashes(p: string): (r: string)
    ensures |r| <= |p| && r == p[..|r|]
    ensures |r| > 0 ==> r[|r| - 1] != '/'
    ensures forall i :: |r| <= i < |p| ==> p[i] == '/'
  {
    if |p| > 0 && p[|p| - 1] == '/' then TrimTrailingSlashes(p[..|p| - 1]) else p
  }

  /** Index of the last occurrence of `c`, if any. */
  function LastIndexOf(s: string, c: char): (r: Option<nat>)
    ensures r.Some? ==> r.value < |s| && s[r.value] == c && forall j :: r.value < j < |s| ==> s[j] != c
    ensures r.None? ==> forall j :: 0 <= j < |s| ==> s[j] != c
  {
    if |s| == 0 then None
    else if s[|s| - 1] == c then Some(|s| - 1)
    else LastIndexOf(s[..|s| - 1], c)
  }

  /** The last path component, trailing slashes ignored. */
  function BaseName(p: string): (r: string)
    ensures forall j :: 0 <= j < |r| ==> r[j] != '/'
  {
    var t := TrimTrailingSlashes(p);
    match LastIndexOf(t, '/')
    case Some(k) => t[k + 1..]
    case None => t
  }

  /**
    `path.extname`: from the last '.' of the last component to its end;
    empty when that component has no '.', when its only leading dot is
    that '.', or when it is "..".
   */
  function Extname(p: string): (r: string)
    ensures r == "" || (r[0] == '.' && forall j :: 1 <= j < |r| ==> r[j] != '.' && r[j] != '/')
  {
    var b := BaseName(p);
    match LastIndexOf(b, '.')
    case None => ""
    case Some(k) => if k == 0 || b == ".." then "" else b[k..]
  }

  /* ---------- lower-casing and the filter ---------- */

  function LowerChar(c: char): char {
    if 'A' <= c <= 'Z' then (c as int - 'A' as int + 'a' as int) as char else c
  }

  /** `toLowerCase` on the letters that matter here (see the README on other scripts). */
  function Lower(s: string): (r: string)
    ensures |r| == |s|
    ensures forall i :: 0 <= i < |s| ==> r[i] == LowerChar(s[i])
  {
    seq(|s|, i requires 0 <= i < |s| => LowerChar(s[i]))
  }

  const AllowedExtensions: set<string> := {".jpg", ".jpeg", ".png"}

  /** `fileFilter`: whether the upload is let through (otherwise multer reports the error). */
  predicate FileFilter(originalName: string) {
    Lower(Extname(originalName)) in AllowedExtensions
  }

  /**
    The filter in terms of the last component alone: accepted exactly when
    it has a '.' that is neither its first character nor followed by
    another '.', and what runs from that '.' to the end is, lower-cased,
    ".jpg", ".jpeg" or ".png".
   */
  lemma FileFilterCharacterisation(originalName: string)
    ensures var b := BaseName(originalName);
      FileFilter(originalName) <==>
        exists k :: 0 < k < |b| && b[k] == '.' && NoDotAfter(b, k) && Lower(b[k..]) in AllowedExtensions
  {
    var b := BaseName(originalName);
    match LastIndexOf(b, '.')
    case None =>
      assert Lower("") == "";
    case Some(k) =>
      if k == 0 || b == ".." {
        assert Lower("") == "";
        forall k' | 0 < k' < |b| && b[k'] == '.' && NoDotAfter(b, k')
          ensures Lower(b[k'..]) !in AllowedExtensions
        {
          assert k' == k;
          assert b == ".." && b[k'..] == ".";
          assert Lower(".") == ".";
        }
      } else {
        assert NoDotAfter(b, k);
        forall k' | 0 < k' < |b| && b[k'] == '.' && NoDotAfter(b, k')
          ensures k' == k
        {
        }
      }
  }

  predicate NoDotAfter(b: string, k: nat)
    requires k < |b|
  {
    forall j :: k < j < |b| ==> b[j] != '.'
  }

  /** A name without '/' keeps everything from its last '.' as extension, unless that '.' leads it or the name is "..". */
  lemma ExtnameOfPlainName(p: string)
    requires |p| > 0 && forall j :: 0 <= j < |p| ==> p[j] != '/'
    ensures match LastIndexOf(p, '.')
      case None => Extname(p) == ""
      case Some(k) => Extname(p) == (if k == 0 || p == ".." then "" else p[k..])
  {
    assert TrimTrailingSlashes(p) == p;
    assert LastIndexOf(p, '/').None?;
  }

  /** Lower-casing touches neither '/' nor '.', so it commutes with every step of `Extname`. */
  lemma {:induction false} TrimCommutesWithLower(p: string)
    ensures TrimTrailingSlashes(Lower(p)) == Lower(TrimTrailingSlashes(p))
  {
    if |p| > 0 {
      assert Lower(p)[..|p| - 1] == Lower(p[..|p| - 1]);
      if p[|p| - 1] == '/' {
        TrimCommutesWithLower(p[..|p| - 1]);
      }
    }
  }

  lemma LastIndexOfUnderLower(s: string, c: char)
    requires c == '/' || c == '.'
    ensures LastIndexOf(Lower(s), c) == LastIndexOf(s, c)
  {
    var l := Lower(s);
    assert forall j :: 0 <= j < |s| ==> (l[j] == c <==> s[j] == c);
  }

  lemma BaseNameCommutesWithLower(p: string)
    ensures BaseName(Lower(p)) == Lower(BaseName(p))
  {
    TrimCommutesWithLower(p);
    var t := TrimTrailingSlashes(p);
    LastIndexOfUnderLower(t, '/');
    match LastIndexOf(t, '/')
    case Some(k) => assert Lower(t)[k + 1..] == Lower(t[k + 1..]);
    case None =>
  }

  lemma ExtnameCommutesWithLower(p: string)
    ensures Extname(Lower(p)) == Lower(Extname(p))
  {
    BaseNameCommutesWithLower(p);
    var b := BaseName(p);
    LastIndexOfUnderLower(b, '.');
    assert Lower(b) == ".." <==> b == ".." by {
      if Lower(b) == ".." { assert b[0] == '.' && b[1] == '.'; }
    }
    match LastIndexOf(b, '.')
    case Some(k) => assert Lower(b)[k..] == Lower(b[k..]);
    case None => assert Lower("") == "";
  }

  /** The filter is case-insensitive: lower-casing the name never changes the verdict. */
  lemma FileFilterIgnoresCase(p: string)
    ensures FileFilter(Lower(p)) == FileFilter(p)
  {
    ExtnameCommutesWithLower(p);
    var e := Extname(p);
    assert Lower(Lower(e)) == Lower(e);
  }

  /** The extension check is case-insensitive: "FOTO.PNG" passes. */
  lemma UpperCaseNameAccepted()
    ensures FileFilter("FOTO.PNG")
  {
    var p := "FOTO.PNG";
    ExtnameOfPlainName(p);
    assert p[4] == '.' && NoDotAfter(p, 4);
    assert LastIndexOf(p, '.') == Some(4);
    assert p[4..] == ".PNG";
    assert Lower(".PNG") == ".png";
  }

  /** Only the last extension counts: "a.png.exe" is refused. */
  lemma DoubleExtensionRejected()
    ensures !FileFilter("a.png.exe")
  {
    var p := "a.png.exe";
    ExtnameOfPlainName(p);
    assert p[5] == '.' && NoDotAfter(p, 5);
    assert LastIndexOf(p, '.') == Some(5);
    assert p[5..] == ".exe";
    assert Lower(".exe") == ".exe";
  }

  /** A bare dot-file name has no extension, so ".png" itself is refused. */
  lemma DotFileRejected()
    ensures !FileFilter(".png")
  {
    var p := ".png";
    ExtnameOfPlainName(p);
    assert p[0] == '.' && NoDotAfter(p, 0);
    assert LastIndexOf(p, '.') == Some(0);
    assert Lower("") == "";
  }

  /* ---------- the stored file name ---------- */

  /** What the JavaScript class `\s` matches: the white-space and line-terminator code points. */
  predicate IsJsWhitespace(c: char) {
    c == '\t' || c == '\n' || c == '\U{B}' || c == '\U{C}' || c == '\r' || c == ' '
    || c == '\U{A0}' || c == '\U{1680}' || ('\U{2000}' <= c <= '\U{200A}')
    || c == '\U{2028}' || c == '\U{2029}' || c == '\U{202F}' || c == '\U{205F}'
    || c == '\U{3000}' || c == '\U{FEFF}'
  }

  predicate NoWhitespace(s: string) {
    forall i :: 0 <= i < |s| ==> !IsJsWhitespace(s[i])
  }

  /** `replace(/\s/g, "_")`. */
  function Sanitize(s: string): (r: string)
    ensures |r| == |s| && NoWhitespace(r)
    ensures forall i :: 0 <= i < |s| ==> r[i] == (if IsJsWhitespace(s[i]) then '_' else s[i])
  {
    seq(|s|, i requires 0 <= i < |s| => if IsJsWhitespace(s[i]) then '_' else s[i])
  }

  /** Sanitising changes a name exactly when it holds whitespace, and a second pass changes nothing. */
  lemma SanitizeFixesExactlyWhitespaceFree(s: string)
    ensures Sanitize(s) == s <==> NoWhitespace(s)
    ensures Sanitize(Sanitize(s)) == Sanitize(s)
  {
    if Sanitize(s) == s {
      forall i | 0 <= i < |s| ensures !IsJsWhitespace(s[i]) {
        assert Sanitize(s)[i] == s[i];
      }
    }
  }

  predicate IsDigit(c: char) {
    '0' <= c <= '9'
  }

  function DigitChar(d: nat): (c: char)
    requires d < 10
    ensures IsDigit(c)
  {
    (d + '0' as int) as char
  }

  function DigitValue(c: char): nat
    requires IsDigit(c)
  {
    c as int - '0' as int
  }

  /** The decimal text of a timestamp, as a template literal prints a non-negative integer. */
  function Decimal(n: nat): (r: string)
    ensures |r| >= 1 && forall i :: 0 <= i < |r| ==> IsDigit(r[i])
    ensures |r| > 1 ==> r[0] != '0'
    decreases n
  {
    if n < 10 then [DigitChar(n)] else Decimal(n / 10) + [DigitChar(n % 10)]
  }

  function ParseDecimal(s: string): nat
    requires forall i :: 0 <= i < |s| ==> IsDigit(s[i])
  {
    if |s| == 0 then 0 else ParseDecimal(s[..|s| - 1]) * 10 + DigitValue(s[|s| - 1])
  }

  lemma {:induction false} DecimalRoundTrip(n: nat)
    ensures ParseDecimal(Decimal(n)) == n
    decreases n
  {
    var r := Decimal(n);
    if n >= 10 {
      DecimalRoundTrip(n / 10);
      assert r[..|r| - 1] == Decimal(n / 10);
    }
  }

  /** `storage.filename`: the upload time in decimal, a '-', and the original name with its whitespace made '_'. */
  function StoredName(timestamp: nat, originalName: string): string {
    Decimal(timestamp) + "-" + Sanitize(originalName)
  }

  /** The stored name holds no whitespace and is exactly one character longer than the timestamp and the original together. */
  lemma StoredNameShape(timestamp: nat, originalName: string)
    ensures NoWhitespace(StoredName(timestamp, originalName))
    ensures |StoredName(timestamp, originalName)| == |Decimal(timestamp)| + 1 + |originalName|
  {
    var d := Decimal(timestamp);
    var name := StoredName(timestamp, originalName);
    forall i | 0 <= i < |name| ensures !IsJsWhitespace(name[i]) {
      if i < |d| { assert IsDigit(name[i]); }
    }
  }

  /** Reads a stored name back: the timestamp before the first '-', the sanitised original after it. */
  function ParseStoredName(name: string): (r: Option<(nat, string)>)
  {
    match FindIndex(name, (c: char) => c == '-')
    case None => None
    case Some(k) =>
      if k == 0 || exists i :: 0 <= i < k && !IsDigit(name[i]) then None
      else Some((ParseDecimal(name[..k]), name[k + 1..]))
  }

  /** The stored name determines the upload time and the sanitised original. */
  lemma StoredNameRoundTrip(timestamp: nat, originalName: string)
    ensures ParseStoredName(StoredName(timestamp, originalName)) == Some((timestamp, Sanitize(originalName)))
  {
    var d := Decimal(timestamp);
    var name := StoredName(timestamp, originalName);
    assert name[|d|] == '-';
    assert forall i :: 0 <= i < |d| ==> name[i] == d[i] && name[i] != '-';
    var found := FindIndex(name, (c: char) => c == '-');
    assert found == Some(|d|);
    assert name[..|d|] == d;
    assert name[|d| + 1..] == Sanitize(originalName);
    DecimalRoundTrip(timestamp);
  }

  /* ---------- the size cap ---------- */

  /** `limits.fileSize`: 2 MiB. */
  const MaxFileSize: nat := 2 * 1024 * 1024

  /** Whether `size` bytes stay within `fileSize`, which multer documents as the maximum file size. */
  predicate SizeAccepted(size: nat) {
    size <= MaxFileSize
  }

  lemma SizeCapIsTwoMebibytes()
    ensures SizeAccepted(2097152) && !SizeAccepted(2097153)
    ensures forall n: nat :: SizeAccepted(n) <==> n <= 2097152
  {
  }
}
